=== FILE: README.md ===
# Organization service core, modelled in Dafny

This project models the request-handling core of an Express/Mongoose REST
service that stores organizations and their addresses. The service lets
callers create an organization, fetch it, and change it with RFC 6902 JSON
Patch documents. The model covers four parts of the service:

- **The request validators** (`src/validators/orgValidator.js`). These are the
  Joi schemas for an address, a creation body and a JSON Patch body, and the
  two middlewares built on them. A middleware either calls `next()` or answers
  400 "Validation Error" with the message of Joi's first error detail.
  - Module `OrgValidator` holds the schemas.
  - Module `JoiErrors` holds Joi's error details and how their messages read.
  - Each schema appears twice. A declarative predicate says which bodies it
    admits (`ValidLocation`, `ValidCreateOrganization`, `ValidJsonPatch`).
    The `...Issue` functions are the first-error walk that Joi performs.
  - The two are tied together by `r.None? <==> Valid...` contracts.
- **The organization document** (`src/models/Organization.js`), in module
  `Organization`.
  - Saving runs the `trim` setters and the `addresses` default first, then the
    `required` validators.
  - The result is either the stored document, with its identifier and the
    save time as both timestamps, or the list of field errors.
- **The bearer-token gate** (`src/middleware/auth.js`), in module `Auth`.
  - JWT verification is a parameter. It yields the claims or throws an error
    that has a name.
- **The error middleware** (`src/middleware/errorHandler.js`), in module
  `ErrorHandler`.
  - It is an ordered table from a thrown error's properties to a response.
  - The model includes the cases where the handler itself throws:
    - a `ValidationError` without `errors`, or with a null or undefined value among them;
    - code 11000 without `keyPattern`;
    - a truthy `status` outside 100..999, which Node refuses to write.

Module `CreateRoute` puts these together as `POST /organization` does in
`src/routes.js`. It shows three things:
- A failed save reaches the error middleware.
- A name made only of spaces passes Joi, which does not trim, but Mongoose
  then refuses it.
- Joi's computed `default([])` for `addresses` is thrown away without loss.

Helper modules:
- `Json` holds JSON values, with object members kept in enumeration order.
- `Text` holds `String.prototype.trim`, `Array.prototype.join` and the
  decimal rendering of numbers.
- `Http` holds responses and the middleware decision.

Some properties hold by construction of the datatypes:
- A middleware never both responds and continues (`Decision`, `AuthOutcome`).
- A stored address has no identifier of its own (`Address`).

Two behaviours follow from the Joi schemas as written, and the model keeps both:
- A patch element with a key other than `op`, `path`, `value` and `from` is
  rejected, because Joi objects refuse unknown keys by default.
- An empty `path` or `from` string is rejected, because `Joi.string()` refuses
  the empty string by default.

## Model

| member | source | states |
|---|---|---|
| `Text.Trim` | src/models/Organization.js:8 | the result has no JavaScript white space at either end, and the input is that result with only white space before and after it |
| `Text.TrimOfPadded` | src/models/Organization.js:36-40 | any trimmed string padded with white space trims back to itself, so `trim` is determined by its guarantees |
| `Text.TrimIdempotent` | src/models/Organization.js:36-40 | trimming twice is trimming once |
| `Text.TrimEmptyIffAllSpace` | src/models/Organization.js:36-40 | `trim` gives "" exactly for strings made only of white space |
| `Text.Join` | src/middleware/errorHandler.js:10 | `join` of no parts is "", of one part is that part, and otherwise opens with the first part |
| `Text.JoinSnoc` | src/middleware/errorHandler.js:10 | joining one more part appends the separator and then that part, so every two neighbouring parts are separated by exactly `sep` |
| `Text.NatToString` | src/validators/orgValidator.js:25 | an index is rendered as decimal digits with no leading zero whose value (`DecimalValue`, read from the left) is the index, as `String(n)` gives it in Joi's `[i]` and Mongoose's `addresses.i.` paths |
| `JoiErrors.Message` | src/validators/orgValidator.js:44 | a missing key with a schema override reads the schema's own text; every other message opens with the quoted label of the failing path |
| `JoiErrors.MessageNamesFirstIndex` | src/validators/orgValidator.js:50-59 | a detail about array element k has a message opening with `"[k]` |
| `JoiErrors.RootNotArrayMessage` | src/validators/orgValidator.js:28 | a non-array patch body reads `"value" must be an array` |
| `JoiErrors.FirstElementKeyLabel` | src/validators/orgValidator.js:29-30 | key k of element 0 is labelled `[0].k` |
| `JoiErrors.FirstAddressKeyLabel` | src/validators/orgValidator.js:25 | key k of the first address is labelled `addresses[0].k` |
| `JoiErrors.RequiredText` | src/validators/orgValidator.js:33 | Joi's `any.required` template: `"[0].path" is required` |
| `JoiErrors.EmptyStringText` | src/validators/orgValidator.js:33 | Joi's `string.empty` template: `"[0].path" is not allowed to be empty` |
| `JoiErrors.EmptyStreetText` | src/validators/orgValidator.js:4 | an empty street in the first address reads `"addresses[0].street" is not allowed to be empty` |
| `JoiErrors.NotStringText` | src/validators/orgValidator.js:22 | Joi's `string.base` template: `"name" must be a string` |
| `JoiErrors.NotObjectText` | src/validators/orgValidator.js:29 | Joi's `object.base` template: `"[0]" must be of type object` |
| `JoiErrors.NotAllowedText` | src/validators/orgValidator.js:21-26 | Joi's `object.unknown` template: `"k" is not allowed`, with the key "" labelled "value" |
| `JoiErrors.NotAllowedAddressText` | src/validators/orgValidator.js:3-19 | `object.unknown` inside the first address: `"addresses[0].k" is not allowed` |
| `OrgValidator.StringIssue` | src/validators/orgValidator.js:33 | a `Joi.string()` key fails exactly when it is required and missing, or present and not a non-empty string; a missing key gives `any.required` with the schema's override, "" gives `string.empty`, a non-string gives `string.base`; the detail names the key's path |
| `OrgValidator.OpIssue` | src/validators/orgValidator.js:30-32 | `op` passes exactly when it is one of the six RFC 6902 operation names; missing gives `any.required`, anything else present gives `any.only` listing the six |
| `Json.FirstUnknownKey` | src/validators/orgValidator.js:21-26 | None exactly when every key is allowed; otherwise an undeclared key that every earlier key precedes as an allowed one, i.e. the first undeclared key in listing order |
| `OrgValidator.UnknownKeyIssue` | src/validators/orgValidator.js:29-36 | an object fails the unknown-key step exactly when it has a key the schema does not declare; the detail is `object.unknown` at the first such key in the order the keys are listed |
| `OrgValidator.LocationIssue` | src/validators/orgValidator.js:3-19 | the address walk finds no error exactly when the value is an object with the five non-empty address strings and no other key; a non-object fails `object.base`; otherwise the detail is that of the first failing key in the order street, city, state, zip, country, with that key's own "required" text; with all five valid, the detail is the unknown-key check's, at the first undeclared key |
| `OrgValidator.PatchOperationIssue` | src/validators/orgValidator.js:29-36 | the element walk finds no error exactly when the element is a valid patch operation; a non-object fails `object.base`; otherwise the detail is at `op`, else at `path`, else at `from`, else at an unknown key, each when the keys before it pass |
| `OrgValidator.ItemsIssue` | src/validators/orgValidator.js:28-37 | the array walk finds no error exactly when every item from i on is valid; an error's path continues with the failing item's index, and the detail is that item's own detail at that path |
| `OrgValidator.ItemsIssueNamesFirst` | src/validators/orgValidator.js:28-37 | the item the array walk names is the first invalid one |
| `OrgValidator.AddressesIssue` | src/validators/orgValidator.js:25 | `addresses` passes exactly when absent or an array of valid addresses; a non-array fails `array.base` at `addresses`; every detail lies under the `addresses` key |
| `OrgValidator.CreateOrganizationIssue` | src/validators/orgValidator.js:21-26 | the creation walk finds no error exactly when the body is a valid creation body; a non-object fails `object.base`; otherwise the detail is the `name` check's when the name fails, else the `addresses` check's when the addresses fail, else the unknown-key check's |
| `OrgValidator.JsonPatchIssue` | src/validators/orgValidator.js:28-37 | the patch walk finds no error exactly when the body is an array of valid operations; a non-array fails `array.base` at the root; otherwise the detail is the element walk's detail for the element it names |
| `OrgValidator.ValidateCreateOrganization` | src/validators/orgValidator.js:39-48 | calls `next()` exactly for bodies the schema admits, and otherwise answers 400 "Validation Error" with the message of the creation walk's detail |
| `OrgValidator.ValidateJsonPatch` | src/validators/orgValidator.js:50-59 | calls `next()` exactly for arrays of valid operations, and otherwise answers 400 "Validation Error" with the message of the patch walk's detail |
| `OrgValidator.CreateSchemaValue` | src/validators/orgValidator.js:25 | Joi's returned value is still valid, keeps the name, and has `addresses` defaulted to [] when it was missing |
| `OrgValidator.PatchElementAccepted` | src/validators/orgValidator.js:29-36 | an element is accepted exactly when `op` is one of the six names, `path` is a non-empty string and `from`, if given, is one too; `value` never matters |
| `OrgValidator.BadOpMessage` | src/validators/orgValidator.js:30-32 | a bad `op` in element 0 gets a message that lists the allowed names |
| `OrgValidator.UnknownOpRejected` | src/validators/orgValidator.js:30-32 | a one-element patch whose `op` is not one of the six names is answered 400 with that message |
| `OrgValidator.EmptyPatchAccepted` | src/validators/orgValidator.js:28-37 | the empty patch passes |
| `OrgValidator.NonArrayPatchRejected` | src/validators/orgValidator.js:28 | any non-array patch body is answered 400 `"value" must be an array` |
| `OrgValidator.FirstRejectedIndex` | src/validators/orgValidator.js:50-59 | the first detail of a rejected patch points at the first invalid element |
| `OrgValidator.FirstRejectedElementNamed` | src/validators/orgValidator.js:50-59 | a rejected patch's message opens with the label of its first invalid element |
| `OrgValidator.MissingNameRejected` | src/validators/orgValidator.js:22-24 | a creation body without `name` is answered with "Organization name is required" |
| `OrgValidator.AddressesOptional` | src/validators/orgValidator.js:25 | a body with only a non-empty name passes |
| `OrgValidator.MissingStreetRejected` | src/validators/orgValidator.js:4-6 | an address without `street` is answered with "Street is required" |
| `OrgValidator.NameNotStringRejected` | src/validators/orgValidator.js:22 | a `name` that is not a string is answered 400 `"name" must be a string` |
| `OrgValidator.UnknownCreateKeyRejected` | src/validators/orgValidator.js:21-26 | a key other than `name` and `addresses` beside a valid name is answered 400 `"k" is not allowed` ("value" for the key "") |
| `OrgValidator.FirstUnknownKeyReported` | src/validators/orgValidator.js:21-26 | of two undeclared keys beside a valid name, the 400 names the one listed first |
| `OrgValidator.ExtraKeyAddressIssue` | src/validators/orgValidator.js:3-19 | an admitted address given one more key fails `object.unknown` at that key |
| `OrgValidator.ExtraAddressKeyRejected` | src/validators/orgValidator.js:3-26 | an admitted first address with one more key is answered 400 `"addresses[0].k" is not allowed` |
| `OrgValidator.EmptyStreetRejected` | src/validators/orgValidator.js:4-6 | an empty street in the first address is answered 400 `"addresses[0].street" is not allowed to be empty` |
| `OrgValidator.MissingPathRejected` | src/validators/orgValidator.js:33 | an element with a valid `op` and no `path` is answered 400 `"[0].path" is required` |
| `OrgValidator.EmptyPathRejected` | src/validators/orgValidator.js:33 | an element with a valid `op` and an empty `path` is answered 400 `"[0].path" is not allowed to be empty`, whatever its `value` |
| `OrgValidator.NonObjectElementRejected` | src/validators/orgValidator.js:29 | an element that is not an object is answered 400 `"[0]" must be of type object` |
| `Organization.TrimField` | src/models/Organization.js:8 | the `trim` setter keeps presence and trims a present value |
| `Organization.NormalizeAddress` | src/models/Organization.js:3-32 | each of the five address fields keeps its presence and is trimmed |
| `Organization.Normalize` | src/models/Organization.js:34-44 | the name keeps its presence and is trimmed; a missing address list becomes []; each address field is trimmed in place |
| `Organization.RequiredCheck` | src/models/Organization.js:36-40 | `required` fails exactly for a missing or empty value, with Mongoose's "Path `x` is required." |
| `Organization.AddressErrors` | src/models/Organization.js:5-29 | an address has no required error exactly when all five fields are non-empty |
| `Organization.AddressesErrors` | src/models/Organization.js:41-44 | the addresses from i on have no error exactly when each of them is complete |
| `Organization.AddressErrorsNamed` | src/models/Organization.js:5-29 | an address's errors are the `required` errors of exactly its missing or empty fields, each at its own path with its own field's message |
| `Organization.AddressesErrorsNamed` | src/models/Organization.js:41-44 | the errors of the addresses are exactly the `required` errors of their missing or empty fields, field f of address j at `addresses.j.f` |
| `Organization.ErrorsNamed` | src/models/Organization.js:34-49 | a document's errors are exactly the `required` errors of its blank fields: the name at `name`, field f of address j at `addresses.j.f` |
| `Organization.TrimmedFieldComplete` | src/models/Organization.js:36-40 | after trimming, a field passes `required` exactly when it was not blank |
| `Organization.ErrorsIffUnacceptable` | src/models/Organization.js:34-49 | a normalised document has no error exactly when the raw document has a non-blank name and complete, non-blank addresses |
| `Organization.TrimmedAddress` | src/models/Organization.js:3-32 | an acceptable raw address trims to an address with the stored shape |
| `Organization.NormalizedAddressesStored` | src/models/Organization.js:41-44 | for an acceptable document each normalised address is complete and is stored as the trimmed raw address; a missing list becomes [] |
| `Organization.StoredDocument` | src/models/Organization.js:34-49 | the stored document has the stored shape, the given id, both timestamps at the save time, the trimmed name, and the trimmed addresses in order |
| `Organization.Create` | src/models/Organization.js:34-49 | saving succeeds exactly for acceptable documents and yields the stored document; a refusal lists "Path `name` is required." exactly when the name is blank, the error of field f of address j at `addresses.j.f` exactly when that field is blank, and nothing else |
| `Organization.AddressesDefaultToEmpty` | src/models/Organization.js:41-44 | without `addresses` the organization is stored with none |
| `Organization.BlankNameRefused` | src/models/Organization.js:36-40 | a missing or blank name is refused, and its error "Path `name` is required." comes first |
| `Organization.StoredTextTrimsToItself` | src/models/Organization.js:8 | a stored string is left alone by `trim` |
| `Organization.NormalizeIdempotent` | src/models/Organization.js:34-44 | applying the setters and the default a second time changes nothing |
| `Organization.StoredAddressRoundTrip` | src/models/Organization.js:3-32 | a stored address, handed back, is acceptable and trims to itself |
| `Organization.RawOfAcceptable` | src/models/Organization.js:34-49 | a stored organization, handed back, is acceptable and each part trims to itself |
| `Organization.StoredFieldsRoundTrip` | src/models/Organization.js:34-49 | saving a stored organization's fields again stores the same fields, with new timestamps |
| `Auth.Token` | src/middleware/auth.js:16 | the header is `Bearer ` followed by the token |
| `Auth.ThrownResponse` | src/middleware/auth.js:25-44 | JsonWebTokenError gets 401 "Invalid token", TokenExpiredError gets 401 "Token has expired", and any other name gets the 500 gate failure |
| `Auth.Authenticate` | src/middleware/auth.js:3-45 | proceeds exactly when the header opens with `Bearer ` and the verifier accepts the token, with the claims as user; otherwise answers 401 or 500, and 401 "No token provided" without a bearer header |
| `Auth.VerifierNotConsulted` | src/middleware/auth.js:8-13 | without a bearer header the outcome does not depend on the verifier |
| `Auth.TokenAfterScheme` | src/middleware/auth.js:16 | the token is exactly what follows `Bearer ` |
| `Auth.BearerOutcome` | src/middleware/auth.js:16-24 | with `Bearer t` the outcome is decided by the verifier's answer for t alone |
| `Auth.LowercaseSchemeRefused` | src/middleware/auth.js:8 | the scheme is case-sensitive: `bearer t` is refused as if no token were given |
| `ErrorHandler.MessageTexts` | src/middleware/errorHandler.js:7 | the map throws exactly when some value is null or undefined; otherwise each value contributes its message, or "" when it has none |
| `ErrorHandler.FirstKeyText` | src/middleware/errorHandler.js:16-19 | a non-empty key pattern is named by its first key, and an empty one by "undefined", as the template literal renders it |
| `ErrorHandler.Handle` | src/middleware/errorHandler.js:1-51 | the handler throws exactly on a ValidationError with missing `errors` or a null value among them, a duplicate key without `keyPattern`, or a fallback with a truthy status outside 100..999; every reply has a status in 100..999; validation errors get 400, duplicates 409 and token errors 401; the fallback always has a name and a message |
| `ErrorHandler.NullEntryEscapes` | src/middleware/errorHandler.js:7 | a null value among a ValidationError's `errors` makes the handler throw |
| `ErrorHandler.ValidationErrorJoined` | src/middleware/errorHandler.js:6-12 | a ValidationError is answered 400 with its field messages joined by ", " |
| `ErrorHandler.FirstRuleWins` | src/middleware/errorHandler.js:6-21 | a ValidationError that also carries code 11000 is still answered 400 |
| `ErrorHandler.DuplicateKeyNamed` | src/middleware/errorHandler.js:15-21 | a duplicate key is answered 409 "<first key> already exists" |
| `ErrorHandler.CastErrorAnswered` | src/middleware/errorHandler.js:24-29 | a CastError is answered 400 "Invalid ID format" |
| `ErrorHandler.TokenErrorsAsGate` | src/middleware/errorHandler.js:32-44 | the handler answers the two JWT errors exactly as the bearer gate does |
| `ErrorHandler.FallbackFieldByField` | src/middleware/errorHandler.js:47-50 | the fallback picks status, name and message each on its own: the error's own value when truthy, else 500, "Server Error", "An unexpected error occurred" |
| `ErrorHandler.InvalidStatusEscapes` | src/middleware/errorHandler.js:47 | a truthy status outside 100..999 makes the handler throw when it writes the response |
| `ErrorHandler.FallbackDefaults` | src/middleware/errorHandler.js:47-50 | an error with none of the properties gets 500 "Server Error" |
| `ErrorHandler.FalsyPropertiesReplaced` | src/middleware/errorHandler.js:47-50 | a status of 0 and an empty name and message are replaced by the defaults |
| `ErrorHandler.PatchFailureAnswered` | src/routes.js:361 | the patch route's "Patch operation failed" error is answered 500 with name "Error" |
| `CreateRoute.AddressFromJson` | src/routes.js:184 | each address field is read from the object's key of the same name |
| `CreateRoute.ValidAddressesRead` | src/routes.js:184 | every admitted address reaches Mongoose with the string the body holds at each of its five keys |
| `CreateRoute.FromBody` | src/routes.js:184 | the document built from a validated body has its name, and its addresses exactly when the body has them, with the same count and each field the string at that address's key |
| `CreateRoute.SaveError` | src/routes.js:191 | a refused save reaches the error middleware as a ValidationError from which the middleware reads back exactly the field messages, in order |
| `CreateRoute.Save` | src/routes.js:182-193 | a validated body is created exactly when acceptable, as the stored document; otherwise the answer is 400 "Validation Error" with the field messages joined by ", " |
| `CreateRoute.RefusedSaveAnswered` | src/routes.js:182-193 | a refused save's message opens with the first field error's message |
| `CreateRoute.BlankNamePassesValidatorFailsSave` | src/models/Organization.js:36-40 | a name of spaces passes the Joi validator but the save is answered 400 "Path `name` is required." |
| `CreateRoute.JoiDefaultImmaterial` | src/validators/orgValidator.js:40 | the document saved from Joi's defaulted value equals the one saved from the raw body |

## Left out

- Applying a JSON Patch (`fast-json-patch` in `src/routes.js`) is not modelled. Only the shape check of the patch body is, and `PatchFailureAnswered` covers the route's error.
- The rest of `src/routes.js` is not modelled beyond the create flow: the registration and login routes, the listing, the lookup and deletion by ID, and the database queries.
- `src/server.js`, `src/config/swagger.js` and `src/scripts/seed.js` are not part of this model.
- Joi and Mongoose are modelled from their documented behaviour, not from their code. Three parts of that behaviour are left out:
  - Mongoose casting of non-string values to strings. A raw field here is a string or missing.
  - Mongoose's own ordering of validation errors. Errors are listed in schema order.
  - `updatedAt` changing on later saves. Only the first save is modelled.
- JavaScript's ordering of integer-like object keys before other keys is not modelled. Members keep the order they are given in.
- Objects with repeated keys never arise from `JSON.parse`, which keeps the last; `Json.DistinctKeys` names the property, and on such objects `Json.Get` is exact (`Json.GetDistinct`).
- JWT signature and expiry checking is cryptography. The verifier is a parameter of `Auth.Authenticate`.
- The `console.log` calls in the error middleware are I/O and are left out.
- Strings are sequences of Unicode characters, not UTF-16 code units. JSON numbers are reals, not doubles.
- CreateRoute.SaveError: does not carry the ValidationError's own `message` text, because the error middleware never reads it on that path.
- ErrorHandler.Handle: a thrown value that is not an object is modelled as an error record with every property missing.
- ErrorHandler.Handle: `status` is modelled as an integer. A non-integer status (a string or a fraction) is left out, and so is any check Express itself makes in `res.status`.
- OrgValidator.BadOpMessage: lists the allowed names through `Text.Join` rather than as one literal string.

=== FILE: auth.dfy ===
/**
 * The bearer-token gate of src/middleware/auth.js: the request must carry an
 * `Authorization` header of the form `Bearer <token>` (section 2.1 of RFC 6750),
 * and the token must pass the JWT verifier. The verifier itself (signature and
 * expiry checks of RFC 7519) is a parameter: it either yields the token's
 * claims or throws an error that has a name.
 */
module Auth {
  import opened Json
  import opened Http

  /** What `jwt.verify(token, secret)` does for one token: return claims or throw a named error. */
  datatype Verification<C> = Verified(claims: C) | Threw(name: string)

  /** The gate's outcome: continue with `req.user` set to the claims, or answer the request. */
  datatype AuthOutcome<C> = Proceed(user: C) | Deny(response: Response)

  const BearerPrefix := "Bearer "

  const MissingToken := Response(401, "Authentication Error", "No token provided. Please provide a Bearer token.")
  const InvalidToken := Response(401, "Authentication Error", "Invalid token")
  const ExpiredToken := Response(401, "Authentication Error", "Token has expired")
  const GateFailure := Response(500, "Server Error", "An error occurred during authentication")

  /** The header is present and opens with `Bearer ` exactly (case and the single space included). */
  predicate HasBearer(header: Option<string>) {
    header.Some? && BearerPrefix <= header.value
  }

  /** `authHeader.substring(7)`: what follows the scheme. */
  function Token(header: string): (t: string)
    requires BearerPrefix <= header
    ensures header == BearerPrefix + t
  {
    header[7..]
  }

  /** The answer to an error thrown while verifying, by the error's name. */
  function ThrownResponse(name: string): (r: Response)
    ensures name == "JsonWebTokenError" ==> r == InvalidToken
    ensures name == "TokenExpiredError" ==> r == ExpiredToken
    ensures name != "JsonWebTokenError" && name != "TokenExpiredError" ==> r == GateFailure
    ensures r.status == 401 <==> name == "JsonWebTokenError" || name == "TokenExpiredError"
  {
    if name == "JsonWebTokenError" then InvalidToken
    else if name == "TokenExpiredError" then ExpiredToken
    else GateFailure
  }

  /**
   * `authMiddleware` for a request whose header is `header` (None when absent),
   * `verify` standing for `jwt.verify` with the configured secret.
   */
  function Authenticate<C>(header: Option<string>, verify: string -> Verification<C>): (r: AuthOutcome<C>)
    ensures r.Proceed? <==> HasBearer(header) && verify(Token(header.value)).Verified?
    ensures r.Proceed? ==> r.user == verify(Token(header.value)).claims
    ensures r.Deny? ==> r.response.status == 401 || r.response.status == 500
    ensures r.Deny? && !HasBearer(header) ==> r.response == MissingToken
  {
    if header.None? || header.value == "" || !(BearerPrefix <= header.value) then
      Deny(MissingToken)
    else
      match verify(Token(header.value))
      case Verified(claims) => Proceed(claims)
      case Threw(name) => Deny(ThrownResponse(name))
  }

  /** Without a well-formed header the verifier is never consulted: any two verifiers give the same 401. */
  lemma VerifierNotConsulted<C>(header: Option<string>, v1: string -> Verification<C>, v2: string -> Verification<C>)
    requires !HasBearer(header)
    ensures Authenticate(header, v1) == Authenticate(header, v2) == Deny(MissingToken)
  {
  }

  /** The token handed to the verifier is exactly what follows `Bearer `. */
  lemma TokenAfterScheme(t: string)
    ensures BearerPrefix <= BearerPrefix + t
    ensures Token(BearerPrefix + t) == t
  {
    assert (BearerPrefix + t)[..|BearerPrefix|] == BearerPrefix;
  }

  /** With `Bearer <t>` the outcome depends on the verifier's answer for `t` alone. */
  lemma BearerOutcome<C>(t: string, verify: string -> Verification<C>)
    ensures Authenticate(Some(BearerPrefix + t), verify)
         == match verify(t)
            case Verified(c) => Proceed(c)
            case Threw(name) => Deny(ThrownResponse(name))
  {
    TokenAfterScheme(t);
  }

  /** The scheme is case-sensitive: `bearer <t>` is refused as if no token were given. */
  lemma LowercaseSchemeRefused<C>(t: string, verify: string -> Verification<C>)
    ensures Authenticate(Some("bearer " + t), verify) == Deny(MissingToken)
  {
    assert ("bearer " + t)[0] == 'b';
  }
}

=== FILE: create_route.dfy ===
/**
 * How the components meet on `POST /organization` (src/routes.js) once the
 * bearer gate has let the request through: `validateCreateOrganization`, then
 * `new Organization(req.body).save()`, a failed save being passed to the error
 * middleware. The gate itself is module Auth; the route's wiring is modelled
 * only as far as these properties need it.
 */
module CreateRoute {
  import opened Json
  import opened Http
  import Text
  import OrgValidator
  import Organization
  import ErrorHandler

  function FieldText(v: Option<Json>): (r: Option<string>)
    ensures r.Some? <==> v.Some? && v.value.JString?
  {
    if v.Some? && v.value.JString? then Some(v.value.s) else None
  }

  /** An address object of a body, as Mongoose receives it: each schema field read from the key of its name. */
  function AddressFromJson(v: Json): (a: Organization.RawAddress)
    ensures forall f :: f in Organization.AddressFields ==>
      Organization.FieldNamed(a, f) == (if v.JObject? then FieldText(Get(v.members, f)) else None)
  {
    if !v.JObject? then Organization.RawAddress(None, None, None, None, None)
    else
      Organization.RawAddress(
        FieldText(Get(v.members, "street")), FieldText(Get(v.members, "city")),
        FieldText(Get(v.members, "state")), FieldText(Get(v.members, "zip")),
        FieldText(Get(v.members, "country")))
  }

  function AddressesFromJson(items: seq<Json>): (r: seq<Organization.RawAddress>)
    ensures |r| == |items| && forall i :: 0 <= i < |items| ==> r[i] == AddressFromJson(items[i])
  {
    if items == [] then [] else [AddressFromJson(items[0])] + AddressesFromJson(items[1..])
  }

  /**
   * `new Organization(req.body)` for a body the validator let through: the
   * name, and the addresses when the body has them.
   */
  function FromBody(body: Json): (raw: Organization.RawOrganization)
    requires OrgValidator.ValidCreateOrganization(body)
    ensures raw.name == Some(Get(body.members, "name").value.s)
    ensures raw.addresses.Some? <==> Get(body.members, "addresses").Some?
    ensures raw.addresses.Some? ==> |raw.addresses.value| == |Get(body.members, "addresses").value.items|
    ensures raw.addresses.Some? ==>
      var items := Get(body.members, "addresses").value.items;
      forall i, f :: 0 <= i < |items| && f in Organization.AddressFields ==>
        HoldsString(items[i], f, Organization.FieldNamed(raw.addresses.value[i], f))
  {
    var a := Get(body.members, "addresses");
    if a.Some? then
      ValidAddressesRead(a.value.items);
      Organization.RawOrganization(FieldText(Get(body.members, "name")), Some(AddressesFromJson(a.value.items)))
    else
      Organization.RawOrganization(FieldText(Get(body.members, "name")), None)
  }

  /** Object `v` holds the string `s` at key `f`. */
  predicate HoldsString(v: Json, f: string, s: Option<string>) {
    v.JObject? && s.Some? && Get(v.members, f) == Some(JString(s.value))
  }

  /** Each address the validator admitted reaches Mongoose with that object's five strings. */
  lemma ValidAddressesRead(items: seq<Json>)
    requires forall i :: 0 <= i < |items| ==> OrgValidator.ValidLocation(items[i])
    ensures forall i, f :: 0 <= i < |items| && f in Organization.AddressFields ==>
      HoldsString(items[i], f, Organization.FieldNamed(AddressesFromJson(items)[i], f))
  {
    forall i, f | 0 <= i < |items| && f in Organization.AddressFields
      ensures HoldsString(items[i], f, Organization.FieldNamed(AddressesFromJson(items)[i], f))
    {
      OrgValidator.LocationStrings(items[i], f);
    }
  }

  /** The messages of a save's field errors, in order. */
  function ErrorMessages(errors: seq<Organization.FieldError>): (r: seq<string>)
    ensures |r| == |errors| && forall i :: 0 <= i < |errors| ==> r[i] == errors[i].message
  {
    if errors == [] then [] else [errors[0].message] + ErrorMessages(errors[1..])
  }

  /**
   * The Mongoose ValidationError a refused save throws, as the error middleware
   * reads it: one entry per field error, so the middleware reads back exactly
   * their messages.
   */
  function SaveError(errors: seq<Organization.FieldError>): (err: ErrorHandler.ErrorRecord)
    ensures ErrorHandler.IsValidationError(err) && err.errors.Some? && |err.errors.value| == |errors|
    ensures forall i :: 0 <= i < |errors| ==> err.errors.value[i] == ErrorHandler.Entry(Some(errors[i].message))
    ensures ErrorHandler.MessageTexts(err.errors.value) == Some(ErrorMessages(errors))
  {
    var entries := seq(|errors|, i requires 0 <= i < |errors| => ErrorHandler.Entry(Some(errors[i].message)));
    assert !ErrorHandler.HasNullEntry(entries);
    assert ErrorHandler.MessageTexts(entries).value == ErrorMessages(errors);
    ErrorHandler.ErrorRecord(Some("ValidationError"), None, None, Some(entries), None, None)
  }

  /** The request's answer once the save has run: 201 with the document, or the error middleware's reply. */
  datatype SaveAnswer = Created(org: Organization.Organization) | Failed(handling: ErrorHandler.Handling)

  function Save(body: Json, id: string, now: int): (a: SaveAnswer)
    requires OrgValidator.ValidCreateOrganization(body)
    ensures a.Created? <==> Organization.Acceptable(FromBody(body))
    ensures a.Created? ==> a.org == Organization.StoredDocument(FromBody(body), id, now)
    ensures a.Failed? ==>
      a.handling == ErrorHandler.Reply(Response(400, "Validation Error",
        Text.Join(ErrorMessages(Organization.Create(FromBody(body), id, now).errors), ", ")))
  {
    match Organization.Create(FromBody(body), id, now)
    case Stored(org) => Created(org)
    case Invalid(errors) => Failed(ErrorHandler.Handle(SaveError(errors)))
  }

  /**
   * A refused save is answered 400 "Validation Error", the message opening
   * with the first field error's message.
   */
  lemma RefusedSaveAnswered(body: Json, id: string, now: int)
    requires OrgValidator.ValidCreateOrganization(body)
    requires !Organization.Acceptable(FromBody(body))
    ensures Save(body, id, now).Failed?
    ensures Organization.Create(FromBody(body), id, now).errors[0].message
         <= Save(body, id, now).handling.response.message
  {
    var errors := Organization.Create(FromBody(body), id, now).errors;
    assert ErrorMessages(errors)[0] == errors[0].message;
  }

  /**
   * The two layers disagree on blank names: Joi lets a name of spaces through
   * (it does not trim), and Mongoose refuses it once trimmed, so the request
   * still ends in 400, now with Mongoose's message.
   */
  lemma BlankNamePassesValidatorFailsSave(name: string, id: string, now: int)
    requires name != "" && Text.AllSpace(name)
    ensures OrgValidator.ValidateCreateOrganization(JObject([("name", JString(name))])) == Next
    ensures Save(JObject([("name", JString(name))]), id, now)
         == Failed(ErrorHandler.Reply(Response(400, "Validation Error", "Path `name` is required.")))
  {
    OrgValidator.AddressesOptional(name);
    var body := JObject([("name", JString(name))]);
    var raw := FromBody(body);
    assert Get(body.members, "addresses").None?;
    assert raw == Organization.RawOrganization(Some(name), None);
    Organization.BlankNameRefused(raw, id, now);
    var errors := Organization.Create(raw, id, now).errors;
    assert |errors| == 1 by {
      assert errors == Organization.Errors(Organization.Normalize(raw));
      assert Organization.AddressesErrors([], 0) == [];
    }
    assert errors == [Organization.FieldError("name", "Path `name` is required.")];
    assert ErrorMessages(errors) == ["Path `name` is required."];
  }

  /**
   * The `default([])` Joi computes for a missing `addresses` is thrown away,
   * and nothing is lost: Mongoose's own default gives the same document.
   */
  lemma JoiDefaultImmaterial(body: Json, id: string, now: int)
    requires OrgValidator.ValidCreateOrganization(body)
    ensures Organization.Create(FromBody(OrgValidator.CreateSchemaValue(body)), id, now)
         == Organization.Create(FromBody(body), id, now)
  {
    var v := OrgValidator.CreateSchemaValue(body);
    assert Organization.Normalize(FromBody(v)) == Organization.Normalize(FromBody(body));
  }
}

=== FILE: error_handler.dfy ===
/**
 * The service's last-resort error middleware, src/middleware/errorHandler.js:
 * an ordered table of rules from a thrown error to a JSON response, the first
 * matching rule deciding. An error is seen through the properties the table
 * reads; an absent property is None.
 */
module ErrorHandler {
  import opened Json
  import opened Http
  import Text
  import Auth

  /**
   * One value of a ValidationError's `errors`: null or undefined, or an object
   * with its `message` (None when it has none).
   */
  datatype ErrorEntry = NullEntry | Entry(message: Option<string>)

  /**
   * The properties of a thrown error the handler reads; None stands for a
   * missing, null or undefined property. `keyPattern` is given by its keys in
   * enumeration order, `errors` by its values in enumeration order.
   */
  datatype ErrorRecord = ErrorRecord(
    name: Option<string>,
    code: Option<int>,
    keyPattern: Option<seq<string>>,
    errors: Option<seq<ErrorEntry>>,
    status: Option<int>,
    message: Option<string>)

  /**
   * What the handler does: answer with a response, or throw itself. It throws
   * when a rule reads `Object.values` or `Object.keys` of a missing property,
   * reads `message` of a null entry, or hands Node a status code outside 100..999.
   */
  datatype Handling = Reply(response: Response) | Escapes

  const DuplicateKeyCode := 11000

  /** Some value of `errors` is null or undefined. */
  predicate HasNullEntry(entries: seq<ErrorEntry>) {
    exists i :: 0 <= i < |entries| && entries[i].NullEntry?
  }

  /**
   * `entries.map((e) => e.message)` as `join` renders it: a missing message
   * becomes ""; None when the map throws on a null entry.
   */
  function MessageTexts(entries: seq<ErrorEntry>): (r: Option<seq<string>>)
    ensures r.None? <==> HasNullEntry(entries)
    ensures r.Some? ==> |r.value| == |entries| && forall i :: 0 <= i < |entries| ==>
      r.value[i] == (if entries[i].message.Some? then entries[i].message.value else "")
  {
    if entries == [] then Some([])
    else if entries[0].NullEntry? then None
    else match MessageTexts(entries[1..])
      case None => None
      case Some(rest) =>
        Some([if entries[0].message.Some? then entries[0].message.value else ""] + rest)
  }

  /** The status codes Node's `writeHead` accepts. */
  predicate ValidStatus(code: int) { 100 <= code <= 999 }

  /** `${Object.keys(keyPattern)[0]}`: the first key, or "undefined" for an empty pattern. */
  function FirstKeyText(keys: seq<string>): (r: string)
    ensures keys != [] ==> r == keys[0]
    ensures keys == [] ==> r == "undefined"
  {
    if keys == [] then "undefined" else keys[0]
  }

  /** JavaScript truthiness of the optional properties the fallback rule reads. */
  predicate TruthyNumber(v: Option<int>) { v.Some? && v.value != 0 }
  predicate TruthyText(v: Option<string>) { v.Some? && v.value != "" }

  predicate IsValidationError(err: ErrorRecord) { err.name == Some("ValidationError") }
  predicate IsDuplicateKey(err: ErrorRecord) { !IsValidationError(err) && err.code == Some(DuplicateKeyCode) }
  predicate IsTokenError(err: ErrorRecord) {
    && !IsValidationError(err) && err.code != Some(DuplicateKeyCode)
    && (err.name == Some("JsonWebTokenError") || err.name == Some("TokenExpiredError"))
  }

  /** No rule before the fallback matches. */
  predicate FallsThrough(err: ErrorRecord) {
    && err.code != Some(DuplicateKeyCode)
    && (err.name.None? || err.name.value !in {"ValidationError", "CastError", "JsonWebTokenError", "TokenExpiredError"})
  }

  /** `errorHandler(err, req, res, next)`. */
  function Handle(err: ErrorRecord): (h: Handling)
    ensures h.Escapes? <==>
      || (IsValidationError(err) && (err.errors.None? || HasNullEntry(err.errors.value)))
      || (IsDuplicateKey(err) && err.keyPattern.None?)
      || (FallsThrough(err) && TruthyNumber(err.status) && !ValidStatus(err.status.value))
    ensures h.Reply? ==> ValidStatus(h.response.status)
    ensures h.Reply? && IsValidationError(err) ==>
      h.response.status == 400 && h.response.error == "Validation Error"
    ensures h.Reply? && IsDuplicateKey(err) ==>
      h.response.status == 409 && h.response.error == "Duplicate Error"
    ensures IsTokenError(err) ==> h.Reply? && h.response.status == 401
    ensures FallsThrough(err) && h.Reply? ==> h.response.error != "" && h.response.message != ""
  {
    if err.name == Some("ValidationError") then
      if err.errors.None? then Escapes
      else match MessageTexts(err.errors.value)
        case None => Escapes
        case Some(texts) => Reply(Response(400, "Validation Error", Text.Join(texts, ", ")))
    else if err.code == Some(DuplicateKeyCode) then
      if err.keyPattern.None? then Escapes
      else Reply(Response(409, "Duplicate Error", FirstKeyText(err.keyPattern.value) + " already exists"))
    else if err.name == Some("CastError") then
      Reply(Response(400, "Invalid ID", "Invalid ID format"))
    else if err.name == Some("JsonWebTokenError") then
      Reply(Response(401, "Authentication Error", "Invalid token"))
    else if err.name == Some("TokenExpiredError") then
      Reply(Response(401, "Authentication Error", "Token has expired"))
    else if TruthyNumber(err.status) && !ValidStatus(err.status.value) then
      Escapes
    else
      Reply(Response(
        if TruthyNumber(err.status) then err.status.value else 500,
        if TruthyText(err.name) then err.name.value else "Server Error",
        if TruthyText(err.message) then err.message.value else "An unexpected error occurred"))
  }

  // ---------------------------------------------------------------------------
  // Properties of the table
  // ---------------------------------------------------------------------------

  /** A Mongoose ValidationError: its field messages, in order, joined by ", ". */
  lemma ValidationErrorJoined(messages: seq<string>, code: Option<int>, status: Option<int>, message: Option<string>)
    ensures var err := ErrorRecord(Some("ValidationError"), code, None,
                                   Some(seq(|messages|, i requires 0 <= i < |messages| => Entry(Some(messages[i])))),
                                   status, message);
            Handle(err) == Reply(Response(400, "Validation Error", Text.Join(messages, ", ")))
  {
    var wrapped := seq(|messages|, i requires 0 <= i < |messages| => Entry(Some(messages[i])));
    assert !HasNullEntry(wrapped);
    assert MessageTexts(wrapped).value == messages;
  }

  /** A null value among the field errors makes the handler itself throw. */
  lemma NullEntryEscapes(err: ErrorRecord, i: nat)
    requires IsValidationError(err) && err.errors.Some?
    requires i < |err.errors.value| && err.errors.value[i] == NullEntry
    ensures Handle(err) == Escapes
  {
  }

  /** Rules are tried in order: a ValidationError that also carries code 11000 is still a 400. */
  lemma FirstRuleWins(err: ErrorRecord)
    requires err.name == Some("ValidationError") && err.code == Some(DuplicateKeyCode)
    requires err.errors.Some? && !HasNullEntry(err.errors.value)
    ensures Handle(err).Reply? && Handle(err).response.status == 400
  {
  }

  /** A duplicate key names the first key of the index pattern. */
  lemma DuplicateKeyNamed(err: ErrorRecord, key: string, more: seq<string>)
    requires !IsValidationError(err) && err.code == Some(DuplicateKeyCode)
    requires err.keyPattern == Some([key] + more)
    ensures Handle(err) == Reply(Response(409, "Duplicate Error", key + " already exists"))
  {
  }

  /** A malformed identifier is a 400 "Invalid ID" unless an earlier rule applies. */
  lemma CastErrorAnswered(err: ErrorRecord)
    requires err.name == Some("CastError") && err.code != Some(DuplicateKeyCode)
    ensures Handle(err) == Reply(Response(400, "Invalid ID", "Invalid ID format"))
  {
  }

  /** The handler answers the two JWT errors exactly as the bearer gate does. */
  lemma TokenErrorsAsGate(err: ErrorRecord)
    requires IsTokenError(err)
    ensures Handle(err) == Reply(Auth.ThrownResponse(err.name.value))
  {
  }

  /**
   * The fallback decides status, name and message each on its own: the error's
   * own value when it is truthy, the default otherwise.
   */
  lemma FallbackFieldByField(err: ErrorRecord)
    requires FallsThrough(err)
    requires TruthyNumber(err.status) ==> ValidStatus(err.status.value)
    ensures Handle(err).Reply?
    ensures Handle(err).response.status == (if TruthyNumber(err.status) then err.status.value else 500)
    ensures Handle(err).response.error == (if TruthyText(err.name) then err.name.value else "Server Error")
    ensures Handle(err).response.message
         == (if TruthyText(err.message) then err.message.value else "An unexpected error occurred")
  {
  }

  /** A truthy status Node cannot send (42, say, or 1000) makes the handler itself throw. */
  lemma InvalidStatusEscapes(err: ErrorRecord)
    requires FallsThrough(err) && TruthyNumber(err.status) && !ValidStatus(err.status.value)
    ensures Handle(err) == Escapes
  {
  }

  /** An error with none of the properties (a thrown non-object, say) gets the generic 500. */
  lemma FallbackDefaults(err: ErrorRecord)
    requires err.name.None? && err.code.None? && err.status.None? && err.message.None?
    ensures Handle(err) == Reply(Response(500, "Server Error", "An unexpected error occurred"))
  {
  }

  /**
   * A status of 0 is falsy, so it is replaced by 500; the empty name and
   * message are replaced likewise.
   */
  lemma FalsyPropertiesReplaced(err: ErrorRecord)
    requires FallsThrough(err)
    requires err.status == Some(0) && err.name == Some("") && err.message == Some("")
    ensures Handle(err) == Reply(Response(500, "Server Error", "An unexpected error occurred"))
  {
  }

  /** The patch route's `new Error('Patch operation failed')`: a 500 labelled "Error". */
  lemma PatchFailureAnswered()
    ensures Handle(ErrorRecord(Some("Error"), None, None, None, None, Some("Patch operation failed")))
         == Reply(Response(500, "Error", "Patch operation failed"))
  {
  }
}

=== FILE: http.dfy ===
/** The JSON error responses every middleware of the service sends: `res.status(s).json({ error, message })`. */
module Http {

  datatype Response = Response(status: int, error: string, message: string)

  /** What a request-checking middleware does: call `next()` or answer the request itself. */
  datatype Decision = Next | Respond(response: Response)
}

=== FILE: joi_errors.dfy ===
/**
 * The error details Joi reports when a value fails a schema, and how their
 * messages read. Only the first detail matters to the service (Joi stops at
 * the first error by default), so a validation yields at most one detail.
 */
module JoiErrors {
  import opened Json
  import Text

  /** One step of the path from the validated value to the offending part. */
  datatype Segment = Key(name: string) | Index(i: nat)

  /** The Joi error codes the service's schemas can raise. */
  datatype Kind =
    | Required                          // any.required
    | NotOneOf(valids: seq<string>)     // any.only
    | NotString                         // string.base
    | EmptyString                       // string.empty
    | NotObject                         // object.base
    | NotArray                          // array.base
    | NotAllowed                        // object.unknown

  /**
   * A detail: its code, where it happened, and the schema's own override of
   * the `any.required` message, when it has one.
   */
  datatype Detail = Detail(kind: Kind, path: seq<Segment>, requiredMessage: Option<string>)

  /** Joi's path rendering: keys joined by dots, indices in brackets (`addresses[0].street`). */
  function PathText(path: seq<Segment>): string
  {
    if path == [] then ""
    else
      var prefix := PathText(path[..|path| - 1]);
      match path[|path| - 1]
      case Key(k) => (if prefix == "" then "" else prefix + ".") + k
      case Index(i) => prefix + "[" + Text.NatToString(i) + "]"
  }

  /** The label a message names: the rendered path, or "value" for the validated value itself. */
  function Label(path: seq<Segment>): string
  {
    var p := PathText(path);
    if p == "" then "value" else p
  }

  /**
   * `error.details[0].message` for a detail: the schema's own text for a
   * missing key when it gives one, and otherwise Joi's template, which opens
   * with the quoted label.
   */
  function Message(d: Detail): (m: string)
    ensures d.kind == Required && d.requiredMessage.Some? ==> m == d.requiredMessage.value
    ensures d.kind != Required || d.requiredMessage.None? ==> "\"" + Label(d.path) + "\"" <= m
  {
    var name := "\"" + Label(d.path) + "\"";
    match d.kind
    case Required =>
      if d.requiredMessage.Some? then d.requiredMessage.value else name + " is required"
    case NotOneOf(valids) =>
      name + (if |valids| == 1 then " must be [" else " must be one of [") + Text.Join(valids, ", ") + "]"
    case NotString => name + " must be a string"
    case EmptyString => name + " is not allowed to be empty"
    case NotObject => name + " must be of type object"
    case NotArray => name + " must be an array"
    case NotAllowed => name + " is not allowed"
  }

  /** Extending a path only extends its rendering. */
  lemma {:induction false} PathTextExtends(p: seq<Segment>, q: seq<Segment>)
    ensures PathText(p) <= PathText(p + q)
    decreases |q|
  {
    if q == [] {
      assert p + q == p;
    } else {
      var init := q[..|q| - 1];
      PathTextExtends(p, init);
      assert (p + q)[..|p + q| - 1] == p + init;
    }
  }

  /** A detail about array element `k` has a message that opens with `"[k]`. */
  lemma MessageNamesFirstIndex(d: Detail, k: nat)
    requires |d.path| > 0 && d.path[0] == Index(k)
    requires d.kind == Required ==> d.requiredMessage.None?
    ensures "\"[" + Text.NatToString(k) + "]" <= Message(d)
  {
    var head := "[" + Text.NatToString(k) + "]";
    var p := PathText(d.path);
    assert d.path == [Index(k)] + d.path[1..];
    PathTextExtends([Index(k)], d.path[1..]);
    assert PathText([Index(k)]) == head by {
      assert [Index(k)][..0] == [];
    }
    assert Label(d.path) == p;
    Text.PrefixAfter("\"", head, p + "\"");
    assert "\"" + (p + "\"") == "\"" + p + "\"";
    assert "\"" + head == "\"[" + Text.NatToString(k) + "]";
  }

  /** The validated value itself is labelled "value". */
  lemma RootNotArrayMessage()
    ensures Message(Detail(NotArray, [], None)) == "\"value\" must be an array"
  {
    assert Label([]) == "value";
  }

  /** The label of key `k` of the first array element: `[0].k`. */
  lemma FirstElementKeyLabel(k: string)
    ensures Label([Index(0), Key(k)]) == "[0]." + k
  {
    assert [Index(0), Key(k)][..1] == [Index(0)];
    assert PathText([Index(0)]) == "[0]" by {
      assert [Index(0)][..0] == [];
    }
  }

  // Joi's English templates, one concrete detail each: the quoted label, then the template's text.

  /** `any.required`: `"[0].path" is required`. */
  lemma RequiredText()
    ensures Message(Detail(Required, [Index(0), Key("path")], None)) == "\"[0].path\"" + " is required"
  {
    FirstElementKeyLabel("path");
  }

  /** `string.empty`: `"[0].path" is not allowed to be empty`. */
  lemma EmptyStringText()
    ensures Message(Detail(EmptyString, [Index(0), Key("path")], None)) == "\"[0].path\"" + " is not allowed to be empty"
  {
    FirstElementKeyLabel("path");
  }

  /** An index is rendered in brackets after its parent's text. */
  lemma IndexText(path: seq<Segment>, i: nat)
    ensures PathText(path + [Index(i)]) == PathText(path) + "[" + Text.NatToString(i) + "]"
  {
    assert (path + [Index(i)])[..|path|] == path;
  }

  /** The rendering of the first address's own path: `addresses[0]`. */
  lemma FirstAddressText()
    ensures PathText([Key("addresses"), Index(0)]) == "addresses[0]"
  {
    assert PathText([Key("addresses")]) == "addresses" by {
      assert [Key("addresses")][..0] == [];
    }
    assert Text.NatToString(0) == "0" by {
      assert Text.NatToString(0) == [Text.DigitChar(0)];
    }
    IndexText([Key("addresses")], 0);
    assert [Key("addresses")] + [Index(0)] == [Key("addresses"), Index(0)];
    assert "addresses" + "[" + "0" + "]" == "addresses[0]";
  }

  /** A key below a non-empty path is rendered after a dot. */
  lemma KeyText(path: seq<Segment>, k: string)
    requires PathText(path) != ""
    ensures PathText(path + [Key(k)]) == PathText(path) + "." + k
  {
    assert (path + [Key(k)])[..|path|] == path;
  }

  /** The label of key `k` of the first address: `addresses[0].k`. */
  lemma FirstAddressKeyLabel(k: string)
    ensures Label([Key("addresses"), Index(0), Key(k)]) == "addresses[0]." + k
  {
    var q := [Key("addresses"), Index(0)];
    FirstAddressText();
    KeyText(q, k);
    assert q + [Key(k)] == [Key("addresses"), Index(0), Key(k)];
    assert |"addresses[0]" + "." + k| > 0;
  }

  /** `string.empty` under an address: `"addresses[0].street" is not allowed to be empty`. */
  lemma EmptyStreetText()
    ensures Message(Detail(EmptyString, [Key("addresses"), Index(0), Key("street")], None))
         == "\"addresses[0].street\"" + " is not allowed to be empty"
  {
    FirstAddressKeyLabel("street");
    assert "\"" + ("addresses[0]." + "street") + "\"" == "\"addresses[0].street\"";
  }

  /** `string.base`: `"name" must be a string`. */
  lemma NotStringText()
    ensures Message(Detail(NotString, [Key("name")], None)) == "\"name\"" + " must be a string"
  {
    assert [Key("name")][..0] == [];
  }

  /** `object.base`: `"[0]" must be of type object`. */
  lemma NotObjectText()
    ensures Message(Detail(NotObject, [Index(0)], None)) == "\"[0]\"" + " must be of type object"
  {
    assert [Index(0)][..0] == [];
  }

  /**
   * `object.unknown`: `"<key>" is not allowed`; the key "" renders as the empty
   * path, which Joi labels "value".
   */
  lemma NotAllowedText(k: string)
    ensures Message(Detail(NotAllowed, [Key(k)], None))
         == "\"" + (if k == "" then "value" else k) + "\"" + " is not allowed"
  {
    assert [Key(k)][..0] == [];
    assert PathText([Key(k)]) == "" + k == k;
  }

  /** `object.unknown` inside the first address: `"addresses[0].<key>" is not allowed`. */
  lemma NotAllowedAddressText(k: string)
    ensures Message(Detail(NotAllowed, [Key("addresses"), Index(0), Key(k)], None))
         == "\"" + "addresses[0]." + k + "\"" + " is not allowed"
  {
    FirstAddressKeyLabel(k);
  }
}

=== FILE: json.dfy ===
/**
 * Parsed request bodies as the service receives them after `express.json()`:
 * a tagged JSON value. Objects keep their members in the order JavaScript
 * enumerates them (the order `Object.keys` and Joi walk them in). `JSON.parse`
 * keeps only the last of repeated keys, so a parsed object has distinct keys
 * (`DistinctKeys`); on such objects `Get` finds each member's own value.
 */
module Json {

  datatype Option<+T> = None | Some(value: T)

  datatype Json =
    | JNull
    | JBool(b: bool)
    | JNumber(n: real)
    | JString(s: string)
    | JArray(items: seq<Json>)
    | JObject(members: seq<(string, Json)>)

  /** The keys of an object, in enumeration order. */
  function Keys(members: seq<(string, Json)>): (ks: seq<string>)
    ensures |ks| == |members|
  {
    if members == [] then [] else [members[0].0] + Keys(members[1..])
  }

  /** `obj[key]`: the value of the first member named `key`, or None when the key is absent. */
  function Get(members: seq<(string, Json)>, key: string): (r: Option<Json>)
    ensures r.None? <==> key !in Keys(members)
  {
    if members == [] then None
    else if members[0].0 == key then Some(members[0].1)
    else
      assert Keys(members) == [members[0].0] + Keys(members[1..]);
      Get(members[1..], key)
  }

  /** No key occurs twice: the objects `JSON.parse` produces. */
  predicate DistinctKeys(members: seq<(string, Json)>) {
    forall i, j :: 0 <= i < j < |members| ==> members[i].0 != members[j].0
  }

  /** In an object with distinct keys, looking up a member's key yields that member's value. */
  lemma {:induction false} GetDistinct(members: seq<(string, Json)>, i: nat)
    requires DistinctKeys(members) && i < |members|
    ensures Get(members, members[i].0) == Some(members[i].1)
  {
    if i > 0 {
      assert members[0].0 != members[i].0;
      var rest := members[1..];
      assert DistinctKeys(rest) by {
        forall a, b | 0 <= a < b < |rest| ensures rest[a].0 != rest[b].0 {
          assert rest[a] == members[a + 1] && rest[b] == members[b + 1];
        }
      }
      assert rest[i - 1] == members[i];
      GetDistinct(rest, i - 1);
    }
  }

  /** Every key of the object is one of `allowed`. */
  predicate OnlyKeys(members: seq<(string, Json)>, allowed: set<string>) {
    forall i :: 0 <= i < |members| ==> members[i].0 in allowed
  }

  /**
   * The first key, in enumeration order, that is not among `allowed`;
   * None exactly when every key is allowed.
   */
  function FirstUnknownKey(members: seq<(string, Json)>, allowed: set<string>): (r: Option<string>)
    ensures r.None? <==> OnlyKeys(members, allowed)
    ensures r.Some? ==> r.value !in allowed && r.value in Keys(members)
    ensures r.Some? ==> exists i :: 0 <= i < |members| && members[i].0 == r.value && OnlyKeys(members[..i], allowed)
  {
    if members == [] then None
    else if members[0].0 !in allowed then
      assert OnlyKeys(members[..0], allowed);
      Some(members[0].0)
    else
      var r := FirstUnknownKey(members[1..], allowed);
      assert r.Some? ==> exists i :: 0 <= i < |members| && members[i].0 == r.value && OnlyKeys(members[..i], allowed) by {
        if r.Some? {
          var j :| 0 <= j < |members[1..]| && members[1..][j].0 == r.value && OnlyKeys(members[1..][..j], allowed);
          assert members[..j + 1] == [members[0]] + members[1..][..j];
          assert members[j + 1].0 == r.value;
        }
      }
      assert Keys(members) == [members[0].0] + Keys(members[1..]);
      assert OnlyKeys(members, allowed) <==> OnlyKeys(members[1..], allowed) by {
        if OnlyKeys(members[1..], allowed) {
          forall i | 0 <= i < |members| ensures members[i].0 in allowed {
            if i > 0 { assert members[i] == members[1..][i - 1]; }
          }
        }
      }
      r
  }

  /** A key is looked up in the first part of a concatenation, then in the second. */
  lemma {:induction false} GetConcat(m1: seq<(string, Json)>, m2: seq<(string, Json)>, key: string)
    ensures Get(m1 + m2, key) == if Get(m1, key).Some? then Get(m1, key) else Get(m2, key)
  {
    if m1 == [] {
      assert m1 + m2 == m2;
    } else {
      assert (m1 + m2)[1..] == m1[1..] + m2;
      GetConcat(m1[1..], m2, key);
    }
  }

  lemma OnlyKeysConcat(m1: seq<(string, Json)>, m2: seq<(string, Json)>, allowed: set<string>)
    ensures OnlyKeys(m1 + m2, allowed) <==> OnlyKeys(m1, allowed) && OnlyKeys(m2, allowed)
  {
    if OnlyKeys(m1, allowed) && OnlyKeys(m2, allowed) {
      forall i | 0 <= i < |m1 + m2| ensures (m1 + m2)[i].0 in allowed {
        if i >= |m1| { assert (m1 + m2)[i] == m2[i - |m1|]; }
      }
    }
    if OnlyKeys(m1 + m2, allowed) {
      forall i | 0 <= i < |m1| ensures m1[i].0 in allowed {
        assert (m1 + m2)[i] == m1[i];
      }
      forall i | 0 <= i < |m2| ensures m2[i].0 in allowed {
        assert (m1 + m2)[|m1| + i] == m2[i];
      }
    }
  }

  /** A member that is written only when it has a value (`{ key: v }` with `v` possibly undefined). */
  function OptionalMember(key: string, v: Option<Json>): (m: seq<(string, Json)>)
    ensures Get(m, key) == v
    ensures forall k :: k != key ==> Get(m, k) == None
    ensures forall i :: 0 <= i < |m| ==> m[i].0 == key
  {
    if v.Some? then [(key, v.value)] else []
  }
}

=== FILE: org_validator.dfy ===
/**
 * The request-shape validators of src/validators/orgValidator.js: the Joi
 * schemas for an address (`locationSchema`), an organization creation body
 * (`createOrganizationSchema`) and a JSON Patch body (`jsonPatchSchema`), and
 * the two middlewares that answer 400 with the first error or call `next()`.
 *
 * Each schema appears twice: as a declarative predicate saying which bodies it
 * admits (`ValidLocation`, `ValidCreateOrganization`, `ValidJsonPatch`), and as
 * the first-error walk Joi performs (`...Issue`). The walk checks the schema's
 * keys in declaration order, then the keys the schema does not know, and stops
 * at the first failure.
 */
module OrgValidator {
  import opened Json
  import opened JoiErrors
  import opened Http
  import Text

  /** The operation names of section 4 of RFC 6902, the only values `op` may take. */
  const PatchOps: seq<string> := ["add", "remove", "replace", "move", "copy", "test"]

  const LocationKeys: set<string> := {"street", "city", "state", "zip", "country"}
  const CreateKeys: set<string> := {"name", "addresses"}
  const PatchKeys: set<string> := {"op", "path", "value", "from"}

  // ---------------------------------------------------------------------------
  // What the schemas admit
  // ---------------------------------------------------------------------------

  /** What `Joi.string()` admits: a string, and not the empty one. */
  predicate IsNonEmptyString(v: Json) {
    v.JString? && v.s != ""
  }

  /** A required `Joi.string()` key. */
  predicate HasNonEmptyString(members: seq<(string, Json)>, key: string) {
    Get(members, key).Some? && IsNonEmptyString(Get(members, key).value)
  }

  /** An optional `Joi.string()` key. */
  predicate OptionalNonEmptyString(members: seq<(string, Json)>, key: string) {
    Get(members, key).None? || IsNonEmptyString(Get(members, key).value)
  }

  /** `locationSchema`: an object with exactly the five required address strings. */
  predicate ValidLocation(v: Json) {
    && v.JObject?
    && HasNonEmptyString(v.members, "street")
    && HasNonEmptyString(v.members, "city")
    && HasNonEmptyString(v.members, "state")
    && HasNonEmptyString(v.members, "zip")
    && HasNonEmptyString(v.members, "country")
    && OnlyKeys(v.members, LocationKeys)
  }

  /** An admitted address has a non-empty string at each of its five keys. */
  lemma LocationStrings(v: Json, f: string)
    requires ValidLocation(v) && f in LocationKeys
    ensures HasNonEmptyString(v.members, f)
  {
  }

  /** `createOrganizationSchema`: a required name and, optionally, an array of locations. */
  predicate ValidCreateOrganization(body: Json) {
    && body.JObject?
    && HasNonEmptyString(body.members, "name")
    && ValidAddresses(Get(body.members, "addresses"))
    && OnlyKeys(body.members, CreateKeys)
  }

  /**
   * One element of `jsonPatchSchema`: `op` one of the six names, `path` a
   * string, `value` anything, `from` a string when present. Nothing ties
   * `value` or `from` to the operation.
   */
  predicate ValidPatchOperation(v: Json) {
    && v.JObject?
    && HasPatchOp(v.members)
    && HasNonEmptyString(v.members, "path")
    && OptionalNonEmptyString(v.members, "from")
    && OnlyKeys(v.members, PatchKeys)
  }

  /** A required `op` key naming one of the six operations. */
  predicate HasPatchOp(members: seq<(string, Json)>) {
    Get(members, "op").Some? && Get(members, "op").value.JString? && Get(members, "op").value.s in PatchOps
  }

  /** `jsonPatchSchema`: an array of valid operations (the empty array included). */
  predicate ValidJsonPatch(body: Json) {
    body.JArray? && forall i :: 0 <= i < |body.items| ==> ValidPatchOperation(body.items[i])
  }

  // ---------------------------------------------------------------------------
  // Joi's first-error walk
  // ---------------------------------------------------------------------------

  function Or(first: Option<Detail>, rest: Option<Detail>): (r: Option<Detail>)
    ensures r.None? <==> first.None? && rest.None?
    ensures first.Some? ==> r == first
  {
    if first.Some? then first else rest
  }

  /** A `Joi.string()` key, required or not, with the schema's own "required" message. */
  function StringIssue(v: Option<Json>, path: seq<Segment>, required: bool, requiredMessage: Option<string>): (r: Option<Detail>)
    ensures r.None? <==> if v.None? then !required else IsNonEmptyString(v.value)
    ensures v.None? && required ==> r == Some(Detail(Required, path, requiredMessage))
    ensures v == Some(JString("")) ==> r == Some(Detail(EmptyString, path, None))
    ensures v.Some? && !v.value.JString? ==> r == Some(Detail(NotString, path, None))
    ensures r.Some? ==> r.value.path == path
    ensures r.Some? && r.value.kind != Required ==> r.value.requiredMessage == None
  {
    match v
    case None => if required then Some(Detail(Required, path, requiredMessage)) else None
    case Some(JString(s)) => if s == "" then Some(Detail(EmptyString, path, None)) else None
    case Some(_) => Some(Detail(NotString, path, None))
  }

  /** `op`: `Joi.string().valid(...).required()`; the allowed-values test comes before the type test. */
  function OpIssue(v: Option<Json>, path: seq<Segment>): (r: Option<Detail>)
    ensures r.None? <==> v.Some? && v.value.JString? && v.value.s in PatchOps
    ensures v.None? ==> r == Some(Detail(Required, path, None))
    ensures v.Some? && r.Some? ==> r.value == Detail(NotOneOf(PatchOps), path, None)
    ensures r.Some? ==> r.value.path == path && r.value.requiredMessage == None
  {
    match v
    case None => Some(Detail(Required, path, None))
    case Some(x) => if x.JString? && x.s in PatchOps then None else Some(Detail(NotOneOf(PatchOps), path, None))
  }

  /** The object check's last step: the first key the schema does not declare. */
  function UnknownKeyIssue(members: seq<(string, Json)>, allowed: set<string>, path: seq<Segment>): (r: Option<Detail>)
    ensures r.None? <==> OnlyKeys(members, allowed)
    ensures r.Some? ==> r.value.kind == NotAllowed && r.value.requiredMessage == None
    ensures r.Some? ==>
      && |r.value.path| == |path| + 1 && r.value.path[..|path|] == path
      && r.value.path[|path|].Key? && r.value.path[|path|].name in Keys(members)
      && r.value.path[|path|].name !in allowed
    ensures r.Some? ==> exists i ::
      0 <= i < |members| && r.value.path[|path|] == Key(members[i].0) && OnlyKeys(members[..i], allowed)
  {
    match FirstUnknownKey(members, allowed)
    case None => None
    case Some(k) => Some(Detail(NotAllowed, path + [Key(k)], None))
  }

  /**
   * `locationSchema` on `v`: the keys are checked in the order the schema
   * declares them, each with its own "required" message, and the unknown keys
   * last.
   */
  function LocationIssue(v: Json, path: seq<Segment>): (r: Option<Detail>)
    ensures r.None? <==> ValidLocation(v)
    ensures r.Some? ==> path <= r.value.path
    ensures !v.JObject? ==> r == Some(Detail(NotObject, path, None))
    ensures v.JObject? && !HasNonEmptyString(v.members, "street") ==>
      r == StringIssue(Get(v.members, "street"), path + [Key("street")], true, Some("Street is required"))
    ensures v.JObject? && HasNonEmptyString(v.members, "street") && !HasNonEmptyString(v.members, "city") ==>
      r == StringIssue(Get(v.members, "city"), path + [Key("city")], true, Some("City is required"))
    ensures (v.JObject? && HasNonEmptyString(v.members, "street") && HasNonEmptyString(v.members, "city")
             && !HasNonEmptyString(v.members, "state")) ==>
      r == StringIssue(Get(v.members, "state"), path + [Key("state")], true, Some("State is required"))
    ensures (v.JObject? && HasNonEmptyString(v.members, "street") && HasNonEmptyString(v.members, "city")
             && HasNonEmptyString(v.members, "state") && !HasNonEmptyString(v.members, "zip")) ==>
      r == StringIssue(Get(v.members, "zip"), path + [Key("zip")], true, Some("ZIP code is required"))
    ensures (v.JObject? && HasNonEmptyString(v.members, "street") && HasNonEmptyString(v.members, "city")
             && HasNonEmptyString(v.members, "state") && HasNonEmptyString(v.members, "zip")
             && !HasNonEmptyString(v.members, "country")) ==>
      r == StringIssue(Get(v.members, "country"), path + [Key("country")], true, Some("Country is required"))
    ensures (v.JObject? && HasNonEmptyString(v.members, "street") && HasNonEmptyString(v.members, "city")
             && HasNonEmptyString(v.members, "state") && HasNonEmptyString(v.members, "zip")
             && HasNonEmptyString(v.members, "country")) ==>
      r == UnknownKeyIssue(v.members, LocationKeys, path)
  {
    if !v.JObject? then Some(Detail(NotObject, path, None))
    else
      var m := v.members;
      Or(StringIssue(Get(m, "street"), path + [Key("street")], true, Some("Street is required")),
      Or(StringIssue(Get(m, "city"), path + [Key("city")], true, Some("City is required")),
      Or(StringIssue(Get(m, "state"), path + [Key("state")], true, Some("State is required")),
      Or(StringIssue(Get(m, "zip"), path + [Key("zip")], true, Some("ZIP code is required")),
      Or(StringIssue(Get(m, "country"), path + [Key("country")], true, Some("Country is required")),
         UnknownKeyIssue(m, LocationKeys, path))))))
  }

  /** One patch element: `op`, then `path`, then `from`, then the unknown keys. */
  function PatchOperationIssue(v: Json, path: seq<Segment>): (r: Option<Detail>)
    ensures r.None? <==> ValidPatchOperation(v)
    ensures r.Some? ==> path <= r.value.path && r.value.requiredMessage == None
    ensures !v.JObject? ==> r == Some(Detail(NotObject, path, None))
    ensures v.JObject? && !HasPatchOp(v.members) ==> r == OpIssue(Get(v.members, "op"), path + [Key("op")])
    ensures v.JObject? && HasPatchOp(v.members) && !HasNonEmptyString(v.members, "path") ==>
      r == StringIssue(Get(v.members, "path"), path + [Key("path")], true, None)
    ensures (v.JObject? && HasPatchOp(v.members) && HasNonEmptyString(v.members, "path")
             && !OptionalNonEmptyString(v.members, "from")) ==>
      r == StringIssue(Get(v.members, "from"), path + [Key("from")], false, None)
    ensures (v.JObject? && HasPatchOp(v.members) && HasNonEmptyString(v.members, "path")
             && OptionalNonEmptyString(v.members, "from")) ==>
      r == UnknownKeyIssue(v.members, PatchKeys, path)
  {
    if !v.JObject? then Some(Detail(NotObject, path, None))
    else
      var m := v.members;
      // `value: Joi.any()` admits everything, so it contributes no check.
      Or(OpIssue(Get(m, "op"), path + [Key("op")]),
      Or(StringIssue(Get(m, "path"), path + [Key("path")], true, None),
      Or(StringIssue(Get(m, "from"), path + [Key("from")], false, None),
         UnknownKeyIssue(m, PatchKeys, path))))
  }

  /** The two kinds of array item the schemas validate. */
  datatype ItemSchema = Location | PatchOperation

  predicate ValidItem(schema: ItemSchema, v: Json) {
    match schema
    case Location => ValidLocation(v)
    case PatchOperation => ValidPatchOperation(v)
  }

  function ItemIssue(schema: ItemSchema, v: Json, path: seq<Segment>): (r: Option<Detail>)
    ensures r.None? <==> ValidItem(schema, v)
    ensures r.Some? ==> path <= r.value.path
    ensures r.Some? && schema == PatchOperation ==> r.value.requiredMessage == None
  {
    match schema
    case Location => LocationIssue(v, path)
    case PatchOperation => PatchOperationIssue(v, path)
  }

  /**
   * `Joi.array().items(schema)` from item `i` on: the first failing item's
   * detail, whose path continues with that item's index; None when all pass.
   */
  function ItemsIssue(schema: ItemSchema, items: seq<Json>, path: seq<Segment>, i: nat): (r: Option<Detail>)
    requires i <= |items|
    ensures r.None? <==> forall j :: i <= j < |items| ==> ValidItem(schema, items[j])
    ensures r.Some? ==>
      && |r.value.path| > |path| && r.value.path[..|path|] == path
      && r.value.path[|path|].Index? && i <= r.value.path[|path|].i < |items|
    ensures r.Some? && schema == PatchOperation ==> r.value.requiredMessage == None
    ensures r.Some? ==> var k := r.value.path[|path|].i;
      k < |items| && r == ItemIssue(schema, items[k], path + [Index(k)])
    decreases |items| - i
  {
    if i == |items| then None
    else
      var here := ItemIssue(schema, items[i], path + [Index(i)]);
      if here.Some? then
        PrefixThrough(path, Index(i), here.value.path);
        here
      else
        var rest := ItemsIssue(schema, items, path, i + 1);
        if rest.None? then AllValidFrom(schema, items, i); rest else rest
  }

  /** A path extending `path + [s]` continues `path` with `s`. */
  lemma PrefixThrough(path: seq<Segment>, s: Segment, q: seq<Segment>)
    requires path + [s] <= q
    ensures |q| > |path| && q[..|path|] == path && q[|path|] == s
  {
    assert q[..|path| + 1] == path + [s];
    assert q[..|path|] == (path + [s])[..|path|];
  }

  /** Item `i` and every item after it pass, so all from `i` on pass. */
  lemma AllValidFrom(schema: ItemSchema, items: seq<Json>, i: nat)
    requires i < |items| && ValidItem(schema, items[i])
    requires forall j :: i + 1 <= j < |items| ==> ValidItem(schema, items[j])
    ensures forall j :: i <= j < |items| ==> ValidItem(schema, items[j])
  {
    forall j | i <= j < |items| ensures ValidItem(schema, items[j]) {
      if j > i { assert i + 1 <= j; }
    }
  }

  /** The item the walk names is the first item, from `i` on, that fails. */
  lemma {:induction false} ItemsIssueNamesFirst(schema: ItemSchema, items: seq<Json>, path: seq<Segment>, i: nat, k: nat)
    requires i <= k < |items| && !ValidItem(schema, items[k])
    requires forall j :: i <= j < k ==> ValidItem(schema, items[j])
    ensures ItemsIssue(schema, items, path, i).Some?
    ensures ItemsIssue(schema, items, path, i).value.path[|path|] == Index(k)
    decreases k - i
  {
    var here := ItemIssue(schema, items[i], path + [Index(i)]);
    if i == k {
      assert here.Some?;
      var p := path + [Index(i)];
      assert here.value.path[..|p|] == p;
      assert here.value.path[|path|] == p[|path|];
    } else {
      assert ValidItem(schema, items[i]);
      ItemsIssueNamesFirst(schema, items, path, i + 1, k);
    }
  }

  /** The optional `addresses` key: absent, or an array of addresses. */
  predicate ValidAddresses(a: Option<Json>) {
    a.None? || (a.value.JArray? && forall i :: 0 <= i < |a.value.items| ==> ValidLocation(a.value.items[i]))
  }

  /** The `addresses` key's check: its details all lie under `addresses`. */
  function AddressesIssue(a: Option<Json>): (r: Option<Detail>)
    ensures r.None? <==> ValidAddresses(a)
    ensures r.Some? ==> |r.value.path| >= 1 && r.value.path[0] == Key("addresses")
    ensures a.Some? && !a.value.JArray? ==> r == Some(Detail(NotArray, [Key("addresses")], None))
    ensures a.Some? && a.value.JArray? ==> r == ItemsIssue(Location, a.value.items, [Key("addresses")], 0)
  {
    match a
    case None => None
    case Some(JArray(items)) => ItemsIssue(Location, items, [Key("addresses")], 0)
    case Some(_) => Some(Detail(NotArray, [Key("addresses")], None))
  }

  /**
   * `createOrganizationSchema.validate(body).error`, its first detail: `name`
   * is checked first, then `addresses`, then the unknown keys.
   */
  function CreateOrganizationIssue(body: Json): (r: Option<Detail>)
    ensures r.None? <==> ValidCreateOrganization(body)
    ensures !body.JObject? ==> r == Some(Detail(NotObject, [], None))
    ensures body.JObject? && !HasNonEmptyString(body.members, "name") ==>
      r == StringIssue(Get(body.members, "name"), [Key("name")], true, Some("Organization name is required"))
    ensures body.JObject? && HasNonEmptyString(body.members, "name") && !ValidAddresses(Get(body.members, "addresses")) ==>
      r == AddressesIssue(Get(body.members, "addresses"))
    ensures body.JObject? && HasNonEmptyString(body.members, "name") && ValidAddresses(Get(body.members, "addresses")) ==>
      r == UnknownKeyIssue(body.members, CreateKeys, [])
  {
    if !body.JObject? then Some(Detail(NotObject, [], None))
    else
      var m := body.members;
      Or(StringIssue(Get(m, "name"), [Key("name")], true, Some("Organization name is required")),
      Or(AddressesIssue(Get(m, "addresses")),
         UnknownKeyIssue(m, CreateKeys, [])))
  }

  /** `jsonPatchSchema.validate(body).error`, its first detail. */
  function JsonPatchIssue(body: Json): (r: Option<Detail>)
    ensures r.None? <==> ValidJsonPatch(body)
    ensures r.Some? ==> r.value.requiredMessage == None
    ensures !body.JArray? ==> r == Some(Detail(NotArray, [], None))
    ensures r.Some? && body.JArray? ==> |r.value.path| > 0 && r.value.path[0].Index?
    ensures r.Some? && body.JArray? ==> var k := r.value.path[0].i;
      k < |body.items| && r == PatchOperationIssue(body.items[k], [Index(k)])
  {
    match body
    case JArray(items) =>
      var r := ItemsIssue(PatchOperation, items, [], 0);
      assert r.Some? ==> [] + [Index(r.value.path[0].i)] == [Index(r.value.path[0].i)];
      r
    case _ => Some(Detail(NotArray, [], None))
  }

  // ---------------------------------------------------------------------------
  // The middlewares
  // ---------------------------------------------------------------------------

  /** The answer both middlewares give on a rejected body. */
  function ValidationFailure(d: Detail): Response
  {
    Response(400, "Validation Error", Message(d))
  }

  /** `validateCreateOrganization`: `next()` exactly for bodies the schema admits. */
  function ValidateCreateOrganization(body: Json): (d: Decision)
    ensures d == Next <==> ValidCreateOrganization(body)
    ensures d.Respond? ==> d.response.status == 400 && d.response.error == "Validation Error"
    ensures d.Respond? ==>
      CreateOrganizationIssue(body).Some? && d.response.message == Message(CreateOrganizationIssue(body).value)
  {
    match CreateOrganizationIssue(body)
    case None => Next
    case Some(e) => Respond(ValidationFailure(e))
  }

  /** `validateJsonPatch`: `next()` exactly for arrays of well-formed operations. */
  function ValidateJsonPatch(body: Json): (d: Decision)
    ensures d == Next <==> ValidJsonPatch(body)
    ensures d.Respond? ==> d.response.status == 400 && d.response.error == "Validation Error"
    ensures d.Respond? ==> JsonPatchIssue(body).Some? && d.response.message == Message(JsonPatchIssue(body).value)
  {
    match JsonPatchIssue(body)
    case None => Next
    case Some(e) => Respond(ValidationFailure(e))
  }

  /**
   * The value `createOrganizationSchema.validate` hands back beside `error`:
   * the body with the `default([])` for a missing `addresses` filled in.
   * The middleware reads only `error`, so this value never reaches the route.
   */
  function CreateSchemaValue(body: Json): (v: Json)
    requires ValidCreateOrganization(body)
    ensures v.JObject? && ValidCreateOrganization(v)
    ensures Get(v.members, "name") == Get(body.members, "name")
    ensures Get(v.members, "addresses")
         == if Get(body.members, "addresses").Some? then Get(body.members, "addresses") else Some(JArray([]))
  {
    if Get(body.members, "addresses").Some? then body
    else
      var tail := [("addresses", JArray([]))];
      var m := body.members + tail;
      GetConcat(body.members, tail, "addresses");
      GetConcat(body.members, tail, "name");
      OnlyKeysConcat(body.members, tail, CreateKeys);
      JObject(m)
  }

  // ---------------------------------------------------------------------------
  // Properties of the validators
  // ---------------------------------------------------------------------------

  /** A patch element with the four keys the schema knows; `value` and `from` only when given. */
  function PatchElement(op: Json, path: Json, value: Option<Json>, from: Option<Json>): Json
  {
    JObject([("op", op), ("path", path)] + OptionalMember("value", value) + OptionalMember("from", from))
  }

  /** What the schema reads from such an element. */
  lemma PatchElementMembers(op: Json, path: Json, value: Option<Json>, from: Option<Json>)
    ensures var m := PatchElement(op, path, value, from).members;
      && Get(m, "op") == Some(op) && Get(m, "path") == Some(path) && Get(m, "from") == from
      && OnlyKeys(m, PatchKeys)
  {
    var head := [("op", op), ("path", path)];
    var valuePart := OptionalMember("value", value);
    var fromPart := OptionalMember("from", from);
    assert Get(head, "from") == None;
    GetConcat(head, valuePart, "op");
    GetConcat(head + valuePart, fromPart, "op");
    GetConcat(head, valuePart, "path");
    GetConcat(head + valuePart, fromPart, "path");
    GetConcat(head, valuePart, "from");
    GetConcat(head + valuePart, fromPart, "from");
    assert OnlyKeys(head, PatchKeys);
    OnlyKeysConcat(head, valuePart, PatchKeys);
    OnlyKeysConcat(head + valuePart, fromPart, PatchKeys);
  }

  /**
   * An element is accepted exactly when `op` is one of the six names, `path` is
   * a non-empty string and `from`, if given, is one too; `value` never matters
   * and no operation needs `value` or `from`.
   */
  lemma PatchElementAccepted(op: Json, path: Json, value: Option<Json>, from: Option<Json>)
    ensures ValidPatchOperation(PatchElement(op, path, value, from))
        <==> op.JString? && op.s in PatchOps && IsNonEmptyString(path)
             && (from.None? || IsNonEmptyString(from.value))
  {
    PatchElementMembers(op, path, value, from);
  }

  /** Joi's message for a bad `op` in element 0: it lists the six allowed names. */
  lemma BadOpMessage()
    ensures Message(Detail(NotOneOf(PatchOps), [Index(0), Key("op")], None))
         == "\"[0].op\"" + " must be one of [" + Text.Join(PatchOps, ", ") + "]"
  {
    FirstElementKeyLabel("op");
    assert "\"" + ("[0]." + "op") + "\"" == "\"[0].op\"";
  }

  /** An operation name outside the six is rejected, with Joi's "must be one of" message naming element 0. */
  lemma UnknownOpRejected(op: string, path: Json, value: Option<Json>, from: Option<Json>)
    requires op !in PatchOps
    ensures ValidateJsonPatch(JArray([PatchElement(JString(op), path, value, from)]))
         == Respond(Response(400, "Validation Error",
                             "\"[0].op\"" + " must be one of [" + Text.Join(PatchOps, ", ") + "]"))
  {
    var e := PatchElement(JString(op), path, value, from);
    PatchElementMembers(JString(op), path, value, from);
    var d := Detail(NotOneOf(PatchOps), [Index(0), Key("op")], None);
    assert [] + [Index(0)] == [Index(0)];
    assert [Index(0)] + [Key("op")] == [Index(0), Key("op")];
    assert PatchOperationIssue(e, [Index(0)]) == Some(d);
    assert ItemsIssue(PatchOperation, [e], [], 0) == Some(d);
    BadOpMessage();
  }

  /** The empty patch is accepted. */
  lemma EmptyPatchAccepted()
    ensures ValidateJsonPatch(JArray([])) == Next
  {
  }

  /** A body that is not an array is rejected whatever it holds. */
  lemma NonArrayPatchRejected(body: Json)
    requires !body.JArray?
    ensures ValidateJsonPatch(body) == Respond(Response(400, "Validation Error", "\"value\" must be an array"))
  {
    assert JsonPatchIssue(body) == Some(Detail(NotArray, [], None));
    RootNotArrayMessage();
  }

  /** The first refused element is the one the first detail points at. */
  lemma FirstRejectedIndex(items: seq<Json>, k: nat)
    requires k < |items| && !ValidPatchOperation(items[k])
    requires forall j :: 0 <= j < k ==> ValidPatchOperation(items[j])
    ensures JsonPatchIssue(JArray(items)).Some?
    ensures |JsonPatchIssue(JArray(items)).value.path| > 0
    ensures JsonPatchIssue(JArray(items)).value.path[0] == Index(k)
  {
    ItemsIssueNamesFirst(PatchOperation, items, [], 0, k);
  }

  /**
   * When element `k` is the first one the schema refuses, the rejection's
   * message starts with that element's label `"[k]`.
   */
  lemma FirstRejectedElementNamed(items: seq<Json>, k: nat)
    requires k < |items| && !ValidPatchOperation(items[k])
    requires forall j :: 0 <= j < k ==> ValidPatchOperation(items[j])
    ensures ValidateJsonPatch(JArray(items)).Respond?
    ensures "\"[" + Text.NatToString(k) + "]" <= ValidateJsonPatch(JArray(items)).response.message
  {
    FirstRejectedIndex(items, k);
    MessageNamesFirstIndex(JsonPatchIssue(JArray(items)).value, k);
  }

  /** A creation body without `name` is answered with the schema's own message. */
  lemma MissingNameRejected(body: Json)
    requires body.JObject? && "name" !in Keys(body.members)
    ensures ValidateCreateOrganization(body)
         == Respond(Response(400, "Validation Error", "Organization name is required"))
  {
  }

  /** `addresses` may be left out. */
  lemma AddressesOptional(name: string)
    requires name != ""
    ensures ValidateCreateOrganization(JObject([("name", JString(name))])) == Next
  {
    assert Get([("name", JString(name))], "addresses") == None;
  }

  /** An address without `street` is answered with "Street is required". */
  lemma MissingStreetRejected(name: string, city: string)
    requires name != ""
    ensures ValidateCreateOrganization(
              JObject([("name", JString(name)), ("addresses", JArray([JObject([("city", JString(city))])]))]))
         == Respond(Response(400, "Validation Error", "Street is required"))
  {
    var m := [("name", JString(name)), ("addresses", JArray([JObject([("city", JString(city))])]))];
    assert Get(m, "name") == Some(JString(name));
    assert Get(m, "addresses") == Some(JArray([JObject([("city", JString(city))])]));
    assert Get([("city", JString(city))], "street") == None;
  }

  /** A `name` that is not a string reads `"name" must be a string`. */
  lemma NameNotStringRejected(v: Json)
    requires !v.JString?
    ensures ValidateCreateOrganization(JObject([("name", v)]))
         == Respond(Response(400, "Validation Error", "\"name\"" + " must be a string"))
  {
    assert Get([("name", v)], "name") == Some(v);
    assert CreateOrganizationIssue(JObject([("name", v)])) == Some(Detail(NotString, [Key("name")], None));
    NotStringText();
  }

  /** A key the creation schema does not declare reads `"<key>" is not allowed`. */
  lemma UnknownCreateKeyRejected(name: string, k: string, v: Json)
    requires name != "" && k !in CreateKeys
    ensures ValidateCreateOrganization(JObject([("name", JString(name)), (k, v)]))
         == Respond(Response(400, "Validation Error", "\"" + (if k == "" then "value" else k) + "\"" + " is not allowed"))
  {
    var m := [("name", JString(name)), (k, v)];
    assert Get(m, "name") == Some(JString(name));
    assert Get(m, "addresses") == None by { assert Get(m[1..], "addresses") == None; }
    assert FirstUnknownKey(m, CreateKeys) == Some(k) by { assert m[1..][0].0 == k; }
    assert CreateOrganizationIssue(JObject(m)) == Some(Detail(NotAllowed, [Key(k)], None));
    NotAllowedText(k);
  }

  /** An empty street in the first address reads `"addresses[0].street" is not allowed to be empty`. */
  lemma EmptyStreetRejected(name: string)
    requires name != ""
    ensures ValidateCreateOrganization(
              JObject([("name", JString(name)), ("addresses", JArray([JObject([("street", JString(""))])]))]))
         == Respond(Response(400, "Validation Error", "\"addresses[0].street\"" + " is not allowed to be empty"))
  {
    var address := JObject([("street", JString(""))]);
    var m := [("name", JString(name)), ("addresses", JArray([address]))];
    assert Get(m, "name") == Some(JString(name));
    assert Get(m, "addresses") == Some(JArray([address]));
    var d := Detail(EmptyString, [Key("addresses"), Index(0), Key("street")], None);
    assert [Key("addresses")] + [Index(0)] == d.path[..2];
    assert d.path[..2] + [Key("street")] == d.path;
    assert LocationIssue(address, d.path[..2]) == Some(d);
    assert ItemsIssue(Location, [address], [Key("addresses")], 0) == Some(d);
    assert CreateOrganizationIssue(JObject(m)) == Some(d);
    EmptyStreetText();
  }

  /** An element without `path` reads `"[0].path" is required`. */
  lemma MissingPathRejected(op: string)
    requires op in PatchOps
    ensures ValidateJsonPatch(JArray([JObject([("op", JString(op))])]))
         == Respond(Response(400, "Validation Error", "\"[0].path\"" + " is required"))
  {
    var e := JObject([("op", JString(op))]);
    assert Get(e.members, "op") == Some(JString(op));
    assert Get(e.members, "path") == None by { assert Get(e.members[1..], "path") == None; }
    var d := Detail(Required, [Index(0), Key("path")], None);
    assert [Index(0)] + [Key("path")] == d.path;
    assert PatchOperationIssue(e, [Index(0)]) == Some(d);
    assert JsonPatchIssue(JArray([e])) == Some(d);
    RequiredText();
  }

  /** An empty `path` reads `"[0].path" is not allowed to be empty`. */
  lemma EmptyPathRejected(op: string, value: Option<Json>)
    requires op in PatchOps
    ensures ValidateJsonPatch(JArray([PatchElement(JString(op), JString(""), value, None)]))
         == Respond(Response(400, "Validation Error", "\"[0].path\"" + " is not allowed to be empty"))
  {
    var e := PatchElement(JString(op), JString(""), value, None);
    PatchElementMembers(JString(op), JString(""), value, None);
    var d := Detail(EmptyString, [Index(0), Key("path")], None);
    assert [Index(0)] + [Key("path")] == d.path;
    assert PatchOperationIssue(e, [Index(0)]) == Some(d);
    assert JsonPatchIssue(JArray([e])) == Some(d);
    EmptyStringText();
  }

  /** An element that is not an object reads `"[0]" must be of type object`. */
  lemma NonObjectElementRejected(v: Json)
    requires !v.JObject?
    ensures ValidateJsonPatch(JArray([v]))
         == Respond(Response(400, "Validation Error", "\"[0]\"" + " must be of type object"))
  {
    assert JsonPatchIssue(JArray([v])) == Some(Detail(NotObject, [Index(0)], None));
    NotObjectText();
  }

  /** The address walk reports a key added to an admitted address at that key. */
  lemma ExtraKeyAddressIssue(members: seq<(string, Json)>, k: string, v: Json, path: seq<Segment>)
    requires ValidLocation(JObject(members)) && k !in LocationKeys
    ensures LocationIssue(JObject(members + [(k, v)]), path) == Some(Detail(NotAllowed, path + [Key(k)], None))
  {
    var am := members + [(k, v)];
    LocationStrings(JObject(members), "street");
    LocationStrings(JObject(members), "city");
    LocationStrings(JObject(members), "state");
    LocationStrings(JObject(members), "zip");
    LocationStrings(JObject(members), "country");
    GetConcat(members, [(k, v)], "street");
    GetConcat(members, [(k, v)], "city");
    GetConcat(members, [(k, v)], "state");
    GetConcat(members, [(k, v)], "zip");
    GetConcat(members, [(k, v)], "country");
    var r := FirstUnknownKey(am, LocationKeys);
    assert r == Some(k) by {
      assert am[|members|].0 == k;
      assert !OnlyKeys(am, LocationKeys);
      var i :| 0 <= i < |am| && am[i].0 == r.value && OnlyKeys(am[..i], LocationKeys);
      if i < |members| { assert am[i] == members[i]; }
    }
  }

  /**
   * An address the schema would admit, given one more key, is answered with
   * `"addresses[0].<key>" is not allowed`.
   */
  lemma ExtraAddressKeyRejected(name: string, address: seq<(string, Json)>, k: string, v: Json)
    requires name != "" && ValidLocation(JObject(address)) && k !in LocationKeys
    ensures ValidateCreateOrganization(
              JObject([("name", JString(name)), ("addresses", JArray([JObject(address + [(k, v)])]))]))
         == Respond(Response(400, "Validation Error", "\"" + "addresses[0]." + k + "\"" + " is not allowed"))
  {
    var extended := JObject(address + [(k, v)]);
    var m := [("name", JString(name)), ("addresses", JArray([extended]))];
    assert Get(m, "name") == Some(JString(name));
    assert Get(m, "addresses") == Some(JArray([extended]));
    var prefix := [Key("addresses"), Index(0)];
    assert [Key("addresses")] + [Index(0)] == prefix;
    var d := Detail(NotAllowed, prefix + [Key(k)], None);
    assert prefix + [Key(k)] == [Key("addresses"), Index(0), Key(k)];
    ExtraKeyAddressIssue(address, k, v, prefix);
    assert ItemsIssue(Location, [extended], [Key("addresses")], 0) == Some(d);
    assert CreateOrganizationIssue(JObject(m)) == Some(d);
    NotAllowedAddressText(k);
  }

  /** Of two undeclared keys, Joi reports the one that comes first in the body. */
  lemma FirstUnknownKeyReported(name: string, k1: string, v1: Json, k2: string, v2: Json)
    requires name != "" && k1 !in CreateKeys && k2 !in CreateKeys
    ensures ValidateCreateOrganization(JObject([("name", JString(name)), (k1, v1), (k2, v2)]))
         == Respond(Response(400, "Validation Error", "\"" + (if k1 == "" then "value" else k1) + "\"" + " is not allowed"))
  {
    var m := [("name", JString(name)), (k1, v1), (k2, v2)];
    assert Get(m, "name") == Some(JString(name));
    assert Get(m, "addresses") == None by {
      assert Get(m[1..][1..], "addresses") == None;
    }
    assert FirstUnknownKey(m, CreateKeys) == Some(k1) by { assert m[1..][0].0 == k1; }
    assert CreateOrganizationIssue(JObject(m)) == Some(Detail(NotAllowed, [Key(k1)], None));
    NotAllowedText(k1);
  }
}

=== FILE: organization.dfy ===
/**
 * The stored organization document of src/models/Organization.js: an
 * organization with a required, trimmed `name`, a list of addresses that
 * defaults to empty, and creation and update timestamps; each address has five
 * required, trimmed strings and no identifier of its own.
 *
 * Saving a document first applies the `trim` setters and the `default`, then
 * runs the `required` validators; a required string fails when it is missing
 * or empty, so a field made only of spaces fails once trimmed.
 */
module Organization {
  import opened Json
  import Text

  /** An address as handed to Mongoose: each field a string or missing. */
  datatype RawAddress = RawAddress(
    street: Option<string>, city: Option<string>, state: Option<string>,
    zip: Option<string>, country: Option<string>)

  /** An organization as handed to Mongoose (`new Organization(body)`). */
  datatype RawOrganization = RawOrganization(name: Option<string>, addresses: Option<seq<RawAddress>>)

  /** A stored address (`locationSchema`, `_id: false`): the five fields and nothing else. */
  datatype Address = Address(street: string, city: string, state: string, zip: string, country: string)

  /** A stored organization: its identifier, the schema's fields and the `timestamps` pair. */
  datatype Organization = Organization(
    id: string, name: string, addresses: seq<Address>, createdAt: int, updatedAt: int)

  /** One entry of a Mongoose ValidationError's `errors`: where and what. */
  datatype FieldError = FieldError(path: string, message: string)

  /** The outcome of saving a new document. */
  datatype Saved = Stored(org: Organization) | Invalid(errors: seq<FieldError>)

  /** The names of the five fields of `locationSchema`. */
  const AddressFields: set<string> := {"street", "city", "state", "zip", "country"}

  /** Field `f` of a raw address, by its schema name. */
  function FieldNamed(a: RawAddress, f: string): Option<string>
  {
    if f == "street" then a.street else if f == "city" then a.city
    else if f == "state" then a.state else if f == "zip" then a.zip
    else if f == "country" then a.country else None
  }

  /** The raw addresses of a document, a missing list read as none. */
  function RawAddresses(raw: RawOrganization): seq<RawAddress>
  {
    if raw.addresses.Some? then raw.addresses.value else []
  }

  // ---------------------------------------------------------------------------
  // The stored shape
  // ---------------------------------------------------------------------------

  /** What a required, trimmed string field holds once stored. */
  predicate IsStoredText(s: string) {
    s != "" && Text.IsTrimmed(s)
  }

  predicate ValidAddress(a: Address) {
    && IsStoredText(a.street) && IsStoredText(a.city) && IsStoredText(a.state)
    && IsStoredText(a.zip) && IsStoredText(a.country)
  }

  /** The shape every stored organization has. */
  predicate ValidOrganization(o: Organization) {
    IsStoredText(o.name) && forall i :: 0 <= i < |o.addresses| ==> ValidAddress(o.addresses[i])
  }

  /** A raw field that passes `required` once trimmed. */
  predicate Fills(v: Option<string>) {
    v.Some? && Text.Trim(v.value) != ""
  }

  predicate AddressAcceptable(a: RawAddress) {
    Fills(a.street) && Fills(a.city) && Fills(a.state) && Fills(a.zip) && Fills(a.country)
  }

  /** The raw documents Mongoose saves: a name and complete addresses, none of them blank. */
  predicate Acceptable(raw: RawOrganization) {
    && Fills(raw.name)
    && (raw.addresses.Some? ==>
          forall i :: 0 <= i < |raw.addresses.value| ==> AddressAcceptable(raw.addresses.value[i]))
  }

  // ---------------------------------------------------------------------------
  // Normalisation: the trim setters and the default
  // ---------------------------------------------------------------------------

  function TrimField(v: Option<string>): (r: Option<string>)
    ensures r.Some? <==> v.Some?
    ensures r.Some? ==> r.value == Text.Trim(v.value)
  {
    match v
    case None => None
    case Some(s) => Some(Text.Trim(s))
  }

  function NormalizeAddress(a: RawAddress): (r: RawAddress)
    ensures forall f :: f in AddressFields ==> FieldNamed(r, f) == TrimField(FieldNamed(a, f))
  {
    RawAddress(TrimField(a.street), TrimField(a.city), TrimField(a.state), TrimField(a.zip), TrimField(a.country))
  }

  function NormalizeAddresses(addrs: seq<RawAddress>): (r: seq<RawAddress>)
    ensures |r| == |addrs|
    ensures forall i :: 0 <= i < |addrs| ==> r[i] == NormalizeAddress(addrs[i])
  {
    if addrs == [] then [] else [NormalizeAddress(addrs[0])] + NormalizeAddresses(addrs[1..])
  }

  /** The document after casting: every present string trimmed, `addresses` defaulted to []. */
  function Normalize(raw: RawOrganization): (n: RawOrganization)
    ensures n.name.Some? <==> raw.name.Some?
    ensures n.name.Some? ==> n.name.value == Text.Trim(raw.name.value)
    ensures n.addresses.Some? && |n.addresses.value| == |RawAddresses(raw)|
    ensures forall j, f :: 0 <= j < |RawAddresses(raw)| && f in AddressFields ==>
      FieldNamed(n.addresses.value[j], f) == TrimField(FieldNamed(RawAddresses(raw)[j], f))
  {
    RawOrganization(
      TrimField(raw.name),
      Some(if raw.addresses.Some? then NormalizeAddresses(raw.addresses.value) else []))
  }

  // ---------------------------------------------------------------------------
  // The required validators
  // ---------------------------------------------------------------------------

  /** Mongoose's `required` message. */
  function RequiredMessage(field: string): string {
    "Path `" + field + "` is required."
  }

  /** The `required` error of the field named `field`, reported at `path`. */
  function RequiredError(path: string, field: string): FieldError {
    FieldError(path, RequiredMessage(field))
  }

  /** Where Mongoose reports field `f` of address `j`. */
  function AddressPath(j: nat, f: string): string {
    "addresses." + Text.NatToString(j) + "." + f
  }

  /** What a String `required` validator accepts: present and not empty. */
  predicate Present(v: Option<string>) {
    v.Some? && v.value != ""
  }

  /** The `required` check of one string: missing or empty fails. */
  function RequiredCheck(v: Option<string>, path: string, field: string): (r: seq<FieldError>)
    ensures r == [] <==> Present(v)
    ensures r != [] ==> r == [RequiredError(path, field)]
  {
    if Present(v) then [] else [RequiredError(path, field)]
  }

  /** Every field of an address is a non-empty string. */
  predicate AddressComplete(a: RawAddress) {
    && a.street.Some? && a.street.value != "" && a.city.Some? && a.city.value != ""
    && a.state.Some? && a.state.value != "" && a.zip.Some? && a.zip.value != ""
    && a.country.Some? && a.country.value != ""
  }

  /** The `required` errors of one address, in schema order, under `prefix`. */
  function AddressErrors(a: RawAddress, prefix: string): (r: seq<FieldError>)
    ensures r == [] <==> AddressComplete(a)
  {
    RequiredCheck(a.street, prefix + "street", "street")
    + RequiredCheck(a.city, prefix + "city", "city")
    + RequiredCheck(a.state, prefix + "state", "state")
    + RequiredCheck(a.zip, prefix + "zip", "zip")
    + RequiredCheck(a.country, prefix + "country", "country")
  }

  /** The errors of addresses `i..`, each under its `addresses.<i>.` path. */
  function AddressesErrors(addrs: seq<RawAddress>, i: nat): (r: seq<FieldError>)
    requires i <= |addrs|
    ensures r == [] <==> forall j :: i <= j < |addrs| ==> AddressComplete(addrs[j])
    decreases |addrs| - i
  {
    if i == |addrs| then []
    else
      var here := AddressErrors(addrs[i], "addresses." + Text.NatToString(i) + ".");
      var rest := AddressesErrors(addrs, i + 1);
      assert |here + rest| == |here| + |rest|;
      CompleteFrom(addrs, i);
      here + rest
  }

  /** The addresses from `i` on are complete exactly when address `i` and those after it are. */
  lemma CompleteFrom(addrs: seq<RawAddress>, i: nat)
    requires i < |addrs|
    ensures (forall j :: i <= j < |addrs| ==> AddressComplete(addrs[j]))
        <==> AddressComplete(addrs[i]) && (forall j :: i + 1 <= j < |addrs| ==> AddressComplete(addrs[j]))
  {
  }

  /** All `required` errors of a normalised document, name first. */
  function Errors(n: RawOrganization): (r: seq<FieldError>)
    requires n.addresses.Some?
  {
    RequiredCheck(n.name, "name", "name") + AddressesErrors(n.addresses.value, 0)
  }

  function StoredAddress(a: RawAddress): Address
    requires AddressComplete(a)
  {
    Address(a.street.value, a.city.value, a.state.value, a.zip.value, a.country.value)
  }

  function StoredAddresses(addrs: seq<RawAddress>): (r: seq<Address>)
    requires forall i :: 0 <= i < |addrs| ==> AddressComplete(addrs[i])
    ensures |r| == |addrs| && forall i :: 0 <= i < |addrs| ==> r[i] == StoredAddress(addrs[i])
  {
    if addrs == [] then [] else [StoredAddress(addrs[0])] + StoredAddresses(addrs[1..])
  }

  /** After trimming, a field passes `required` exactly when it was not blank. */
  lemma TrimmedFieldComplete(v: Option<string>)
    ensures Present(TrimField(v)) <==> Fills(v)
  {
  }

  /** Two fields with the same `required` message are the same field. */
  lemma RequiredMessageInjective(f: string, g: string)
    requires RequiredMessage(f) == RequiredMessage(g)
    ensures f == g
  {
    assert RequiredMessage(f)[6..6 + |f|] == f;
    assert RequiredMessage(g)[6..6 + |g|] == g;
  }

  /** The path of a field names its address: distinct addresses have distinct paths. */
  lemma AddressPathInjective(j: nat, k: nat, f: string)
    requires AddressPath(j, f) == AddressPath(k, f)
    ensures j == k
  {
    var a, b := Text.NatToString(j), Text.NatToString(k);
    assert AddressPath(j, f)[10..10 + |a|] == a;
    assert AddressPath(k, f)[10..10 + |b|] == b;
    Text.NatToStringInjective(j, k);
  }

  /** The errors of one address are the `required` errors of exactly its missing or empty fields. */
  lemma AddressErrorsNamed(a: RawAddress, prefix: string)
    ensures forall f :: f in AddressFields ==>
      (RequiredError(prefix + f, f) in AddressErrors(a, prefix) <==> !Present(FieldNamed(a, f)))
    ensures forall e :: e in AddressErrors(a, prefix) ==>
      exists f :: f in AddressFields && e == RequiredError(prefix + f, f)
  {
  }

  /**
   * The errors of addresses `i..` are the `required` errors, each at its
   * `addresses.<j>.<f>` path, of exactly their missing or empty fields.
   */
  lemma {:induction false} AddressesErrorsNamed(addrs: seq<RawAddress>, i: nat)
    requires i <= |addrs|
    ensures forall j, f :: i <= j < |addrs| && f in AddressFields ==>
      (RequiredError(AddressPath(j, f), f) in AddressesErrors(addrs, i) <==> !Present(FieldNamed(addrs[j], f)))
    ensures forall e :: e in AddressesErrors(addrs, i) ==>
      exists j, f :: i <= j < |addrs| && f in AddressFields && e == RequiredError(AddressPath(j, f), f)
    decreases |addrs| - i
  {
    if i < |addrs| {
      var prefix := "addresses." + Text.NatToString(i) + ".";
      var here := AddressErrors(addrs[i], prefix);
      var rest := AddressesErrors(addrs, i + 1);
      assert AddressesErrors(addrs, i) == here + rest;
      AddressErrorsNamed(addrs[i], prefix);
      AddressesErrorsNamed(addrs, i + 1);
      forall j, f | i <= j < |addrs| && f in AddressFields
        ensures RequiredError(AddressPath(j, f), f) in here + rest <==> !Present(FieldNamed(addrs[j], f))
      {
        var e := RequiredError(AddressPath(j, f), f);
        if j == i {
          if e in rest {
            var k, g :| i + 1 <= k < |addrs| && g in AddressFields && e == RequiredError(AddressPath(k, g), g);
            RequiredMessageInjective(f, g);
            AddressPathInjective(i, k, f);
          }
        } else if e in here {
          var g :| g in AddressFields && e == RequiredError(prefix + g, g);
          RequiredMessageInjective(f, g);
          AddressPathInjective(i, j, f);
        }
      }
      forall e | e in here + rest
        ensures exists j, f :: i <= j < |addrs| && f in AddressFields && e == RequiredError(AddressPath(j, f), f)
      {
        if e in here {
          var g :| g in AddressFields && e == RequiredError(prefix + g, g);
          assert e == RequiredError(AddressPath(i, g), g);
        }
      }
    }
  }

  /**
   * The `required` errors of a saved document name exactly its blank fields:
   * the name, and field `f` of address `j` at `addresses.<j>.<f>`.
   */
  lemma ErrorsNamed(raw: RawOrganization)
    ensures RequiredError("name", "name") in Errors(Normalize(raw)) <==> !Fills(raw.name)
    ensures forall j, f :: 0 <= j < |RawAddresses(raw)| && f in AddressFields ==>
      (RequiredError(AddressPath(j, f), f) in Errors(Normalize(raw)) <==> !Fills(FieldNamed(RawAddresses(raw)[j], f)))
    ensures forall e :: e in Errors(Normalize(raw)) ==> (e == RequiredError("name", "name") ||
      exists j, f :: 0 <= j < |RawAddresses(raw)| && f in AddressFields && e == RequiredError(AddressPath(j, f), f))
  {
    var n := Normalize(raw);
    var addrs := n.addresses.value;
    var head := RequiredCheck(n.name, "name", "name");
    var tail := AddressesErrors(addrs, 0);
    assert Errors(n) == head + tail;
    AddressesErrorsNamed(addrs, 0);
    TrimmedFieldComplete(raw.name);
    forall j, f | 0 <= j < |RawAddresses(raw)| && f in AddressFields
      ensures RequiredError(AddressPath(j, f), f) in head + tail <==> !Fills(FieldNamed(RawAddresses(raw)[j], f))
    {
      var e := RequiredError(AddressPath(j, f), f);
      TrimmedFieldComplete(FieldNamed(RawAddresses(raw)[j], f));
      assert e !in head by {
        if e in head {
          RequiredMessageInjective(f, "name");
          assert false;
        }
      }
      assert e in tail <==> !Present(FieldNamed(addrs[j], f));
    }
    forall e | e in head + tail
      ensures e == RequiredError("name", "name") ||
        exists j, f :: 0 <= j < |RawAddresses(raw)| && f in AddressFields && e == RequiredError(AddressPath(j, f), f)
    {
    }
  }

  /** The normalised document has no `required` error exactly when the raw one is acceptable. */
  lemma ErrorsIffUnacceptable(raw: RawOrganization)
    ensures Errors(Normalize(raw)) == [] <==> Acceptable(raw)
  {
    var n := Normalize(raw);
    TrimmedFieldComplete(raw.name);
    var nameErrors := RequiredCheck(n.name, "name", "name");
    var addressErrors := AddressesErrors(n.addresses.value, 0);
    assert Errors(n) == nameErrors + addressErrors;
    assert Errors(n) == [] <==> nameErrors == [] && addressErrors == [];
    if raw.addresses.Some? {
      var addrs := raw.addresses.value;
      forall i | 0 <= i < |addrs|
        ensures AddressComplete(n.addresses.value[i]) <==> AddressAcceptable(addrs[i])
      {
        var a := addrs[i];
        assert n.addresses.value[i]
            == RawAddress(TrimField(a.street), TrimField(a.city), TrimField(a.state), TrimField(a.zip), TrimField(a.country));
        TrimmedFieldComplete(a.street);
        TrimmedFieldComplete(a.city);
        TrimmedFieldComplete(a.state);
        TrimmedFieldComplete(a.zip);
        TrimmedFieldComplete(a.country);
      }
    }
  }

  /** The address stored for an acceptable raw address: its five fields, trimmed. */
  function TrimmedAddress(a: RawAddress): (r: Address)
    requires AddressAcceptable(a)
    ensures ValidAddress(r)
  {
    Address(Text.Trim(a.street.value), Text.Trim(a.city.value), Text.Trim(a.state.value),
            Text.Trim(a.zip.value), Text.Trim(a.country.value))
  }

  /** For an acceptable document, each normalised address is stored as the trimmed raw address. */
  lemma NormalizedAddressesStored(raw: RawOrganization)
    requires Acceptable(raw)
    ensures forall i :: 0 <= i < |Normalize(raw).addresses.value| ==> AddressComplete(Normalize(raw).addresses.value[i])
    ensures raw.addresses.Some? ==> |Normalize(raw).addresses.value| == |raw.addresses.value|
    ensures raw.addresses.None? ==> Normalize(raw).addresses.value == []
    ensures forall i :: 0 <= i < |Normalize(raw).addresses.value| ==>
      StoredAddress(Normalize(raw).addresses.value[i]) == TrimmedAddress(raw.addresses.value[i])
  {
    var n := Normalize(raw);
    ErrorsIffUnacceptable(raw);
    forall i | 0 <= i < |n.addresses.value|
      ensures StoredAddress(n.addresses.value[i]) == TrimmedAddress(raw.addresses.value[i])
    {
      assert n.addresses.value[i] == NormalizeAddress(raw.addresses.value[i]);
    }
  }

  /** The document stored for an acceptable raw document: its normalised fields and the save time. */
  function StoredDocument(raw: RawOrganization, id: string, now: int): (o: Organization)
    requires Acceptable(raw)
    ensures ValidOrganization(o)
    ensures o.id == id && o.createdAt == now && o.updatedAt == now
    ensures o.name == Text.Trim(raw.name.value)
    ensures |o.addresses| == (if raw.addresses.Some? then |raw.addresses.value| else 0)
    ensures forall i :: 0 <= i < |o.addresses| ==> o.addresses[i] == TrimmedAddress(raw.addresses.value[i])
  {
    var n := Normalize(raw);
    NormalizedAddressesStored(raw);
    assert raw.addresses.Some? ==> |n.addresses.value| == |raw.addresses.value|;
    var stored := StoredAddresses(n.addresses.value);
    Organization(id, n.name.value, stored, now, now)
  }

  /**
   * `new Organization(raw).save()` at time `now`, the new document receiving
   * identifier `id`: the trim setters and the default, then the `required`
   * validators; stored exactly when the raw document is acceptable.
   */
  function Create(raw: RawOrganization, id: string, now: int): (r: Saved)
    ensures r.Stored? <==> Acceptable(raw)
    ensures r.Stored? ==> r.org == StoredDocument(raw, id, now)
    ensures r.Invalid? ==> r.errors != []
    ensures r.Invalid? ==> (RequiredError("name", "name") in r.errors <==> !Fills(raw.name))
    ensures r.Invalid? ==> forall j, f :: 0 <= j < |RawAddresses(raw)| && f in AddressFields ==>
      (RequiredError(AddressPath(j, f), f) in r.errors <==> !Fills(FieldNamed(RawAddresses(raw)[j], f)))
    ensures r.Invalid? ==> forall e :: e in r.errors ==> (e == RequiredError("name", "name") ||
      exists j, f :: 0 <= j < |RawAddresses(raw)| && f in AddressFields && e == RequiredError(AddressPath(j, f), f))
  {
    var errors := Errors(Normalize(raw));
    ErrorsIffUnacceptable(raw);
    ErrorsNamed(raw);
    if errors == [] then Stored(StoredDocument(raw, id, now)) else Invalid(errors)
  }

  // ---------------------------------------------------------------------------
  // Properties of the document model
  // ---------------------------------------------------------------------------

  /** Without `addresses`, an organization is stored with none. */
  lemma AddressesDefaultToEmpty(name: string, id: string, now: int)
    requires Text.Trim(name) != ""
    ensures Create(RawOrganization(Some(name), None), id, now)
         == Stored(Organization(id, Text.Trim(name), [], now, now))
  {
  }

  /** A blank or missing name is refused, and the name's error comes first. */
  lemma BlankNameRefused(raw: RawOrganization, id: string, now: int)
    requires raw.name.None? || Text.AllSpace(raw.name.value)
    ensures Create(raw, id, now).Invalid?
    ensures Create(raw, id, now).errors[0] == FieldError("name", "Path `name` is required.")
  {
    if raw.name.Some? { Text.TrimEmptyIffAllSpace(raw.name.value); }
    var n := Normalize(raw);
    assert n.name.None? || n.name.value == "";
    assert Errors(n)[0] == FieldError("name", RequiredMessage("name"));
    NameRequiredMessage();
  }

  lemma NameRequiredMessage()
    ensures RequiredMessage("name") == "Path `name` is required."
  {
  }

  /** A string that already has the stored form is left alone by `trim`. */
  lemma StoredTextTrimsToItself(s: string)
    requires IsStoredText(s)
    ensures Text.Trim(s) == s
  {
    assert [] + s + [] == s;
    Text.TrimOfPadded([], s, []);
  }

  /** Trimming the raw fields a second time changes nothing. */
  lemma NormalizeIdempotent(raw: RawOrganization)
    ensures Normalize(Normalize(raw)) == Normalize(raw)
  {
    var n := Normalize(raw);
    forall v: Option<string> ensures TrimField(TrimField(v)) == TrimField(v) {
      if v.Some? { Text.TrimIdempotent(v.value); }
    }
    var addrs := n.addresses.value;
    assert NormalizeAddresses(addrs) == addrs;
  }

  function RawAddressOf(a: Address): RawAddress {
    RawAddress(Some(a.street), Some(a.city), Some(a.state), Some(a.zip), Some(a.country))
  }

  function RawAddressesOf(addrs: seq<Address>): (r: seq<RawAddress>)
    ensures |r| == |addrs| && forall i :: 0 <= i < |addrs| ==> r[i] == RawAddressOf(addrs[i])
  {
    if addrs == [] then [] else [RawAddressOf(addrs[0])] + RawAddressesOf(addrs[1..])
  }

  /** A stored organization's fields, handed back to Mongoose. */
  function RawOf(o: Organization): RawOrganization {
    RawOrganization(Some(o.name), Some(RawAddressesOf(o.addresses)))
  }

  /** A stored address, handed back, is acceptable and trims to itself. */
  lemma StoredAddressRoundTrip(a: Address)
    requires ValidAddress(a)
    ensures AddressAcceptable(RawAddressOf(a)) && TrimmedAddress(RawAddressOf(a)) == a
  {
    StoredTextTrimsToItself(a.street);
    StoredTextTrimsToItself(a.city);
    StoredTextTrimsToItself(a.state);
    StoredTextTrimsToItself(a.zip);
    StoredTextTrimsToItself(a.country);
  }

  /** A stored organization, handed back, is acceptable and each of its parts trims to itself. */
  lemma RawOfAcceptable(o: Organization)
    requires ValidOrganization(o)
    ensures Acceptable(RawOf(o)) && Text.Trim(o.name) == o.name
    ensures forall i :: 0 <= i < |o.addresses| ==>
      AddressAcceptable(RawOf(o).addresses.value[i]) && TrimmedAddress(RawOf(o).addresses.value[i]) == o.addresses[i]
  {
    var addrs := RawOf(o).addresses.value;
    StoredTextTrimsToItself(o.name);
    forall i | 0 <= i < |addrs|
      ensures AddressAcceptable(addrs[i]) && TrimmedAddress(addrs[i]) == o.addresses[i]
    {
      StoredAddressRoundTrip(o.addresses[i]);
    }
  }

  /** Two documents with the same fields and addresses are the same document. */
  lemma SameDocument(p: Organization, q: Organization)
    requires p.id == q.id && p.name == q.name && p.createdAt == q.createdAt && p.updatedAt == q.updatedAt
    requires |p.addresses| == |q.addresses|
    requires forall i :: 0 <= i < |p.addresses| ==> p.addresses[i] == q.addresses[i]
    ensures p == q
  {
    assert p.addresses == q.addresses;
  }

  /**
   * Saving the fields of a stored organization again stores the same fields:
   * the stored shape is a fixed point of trimming and validation.
   */
  lemma StoredFieldsRoundTrip(o: Organization, now: int)
    requires ValidOrganization(o)
    ensures Create(RawOf(o), o.id, now) == Stored(o.(createdAt := now, updatedAt := now))
  {
    var raw := RawOf(o);
    RawOfAcceptable(o);
    var r := Create(raw, o.id, now);
    assert r.Stored?;
    forall i | 0 <= i < |o.addresses| ensures r.org.addresses[i] == o.addresses[i] {
      assert r.org.addresses[i] == TrimmedAddress(raw.addresses.value[i]);
    }
    SameDocument(r.org, o.(createdAt := now, updatedAt := now));
  }
}

=== FILE: text.dfy ===
/**
 * The JavaScript string operations the core relies on: `String.prototype.trim`
 * (used by the Mongoose `trim: true` setter), `Array.prototype.join`, and the
 * decimal rendering of array indices in Joi's error labels.
 */
module Text {

  /** JavaScript's WhiteSpace and LineTerminator code points: what `trim` removes. */
  predicate IsJsSpace(c: char) {
    || c == '\t' || c == '\n' || c == '\U{B}' || c == '\U{C}' || c == '\r' || c == ' '
    || c == '\U{A0}' || c == '\U{1680}' || ('\U{2000}' <= c <= '\U{200A}')
    || c == '\U{2028}' || c == '\U{2029}' || c == '\U{202F}' || c == '\U{205F}'
    || c == '\U{3000}' || c == '\U{FEFF}'
  }

  predicate AllSpace(s: string) {
    forall i :: 0 <= i < |s| ==> IsJsSpace(s[i])
  }

  /** Neither end of `s` is a space: what `trim` guarantees of its result. */
  predicate IsTrimmed(s: string) {
    s != [] ==> !IsJsSpace(s[0]) && !IsJsSpace(s[|s| - 1])
  }

  /** How many spaces `s` starts with. */
  function LeadingSpaces(s: string): (n: nat)
    ensures n <= |s| && AllSpace(s[..n])
    ensures n < |s| ==> !IsJsSpace(s[n])
  {
    if s != [] && IsJsSpace(s[0]) then
      var n := LeadingSpaces(s[1..]);
      assert s[..n + 1] == [s[0]] + s[1..][..n];
      n + 1
    else 0
  }

  /** Where the spaces `s` ends with begin: `s[..e]` ends in a non-space or is empty. */
  function TrailingSpacesStart(s: string): (e: nat)
    ensures e <= |s| && AllSpace(s[e..])
    ensures e > 0 ==> !IsJsSpace(s[e - 1])
  {
    if s != [] && IsJsSpace(s[|s| - 1]) then
      var init := s[..|s| - 1];
      var e := TrailingSpacesStart(init);
      assert s[e..] == init[e..] + [s[|s| - 1]];
      e
    else |s|
  }

  /**
   * `s.trim()`: the result has no space at either end, and `s` is the result
   * with only spaces added before and after it.
   */
  function Trim(s: string): (r: string)
    ensures IsTrimmed(r)
    ensures var i := LeadingSpaces(s);
      i + |r| <= |s| && r == s[i..i + |r|] && AllSpace(s[..i]) && AllSpace(s[i + |r|..])
  {
    var i := LeadingSpaces(s);
    var t := s[i..];
    var e := TrailingSpacesStart(t);
    assert s[i + e..] == t[e..];
    t[..e]
  }

  /** The leading-space count is the only `k` whose prefix is all spaces and that stops at a non-space. */
  lemma {:induction false} LeadingSpacesIs(s: string, k: nat)
    requires k <= |s| && AllSpace(s[..k]) && (k < |s| ==> !IsJsSpace(s[k]))
    ensures LeadingSpaces(s) == k
  {
    if k > 0 {
      assert s[1..][..k - 1] == s[1..k];
      LeadingSpacesIs(s[1..], k - 1);
    }
  }

  /** The start of the trailing spaces is the only `e` after which all is space and before which is a non-space. */
  lemma {:induction false} TrailingSpacesStartIs(s: string, e: nat)
    requires e <= |s| && AllSpace(s[e..]) && (e > 0 ==> !IsJsSpace(s[e - 1]))
    ensures TrailingSpacesStart(s) == e
    decreases |s|
  {
    if e < |s| {
      assert s[..|s| - 1][e..] == s[e..|s| - 1];
      TrailingSpacesStartIs(s[..|s| - 1], e);
    }
  }

  /** Trimming is determined by its guarantees: pad a trimmed string with spaces and `trim` gives it back. */
  lemma TrimOfPadded(p: string, r: string, q: string)
    requires AllSpace(p) && AllSpace(q) && IsTrimmed(r)
    ensures Trim(p + r + q) == r
  {
    var s := p + r + q;
    if r == [] {
      assert s == p + q;
      assert s[..|s|] == s;
      LeadingSpacesIs(s, |s|);
    } else {
      assert s[..|p|] == p;
      assert s[|p|] == r[0];
      LeadingSpacesIs(s, |p|);
      var t := s[|p|..];
      assert t == r + q;
      assert t[|r|..] == q;
      assert t[|r| - 1] == r[|r| - 1];
      TrailingSpacesStartIs(t, |r|);
      assert t[..|r|] == r;
    }
  }

  /** Trimming twice is trimming once. */
  lemma TrimIdempotent(s: string)
    ensures Trim(Trim(s)) == Trim(s)
  {
    var r := Trim(s);
    assert [] + r + [] == r;
    TrimOfPadded([], r, []);
  }

  /** `trim` yields the empty string exactly for strings made only of spaces. */
  lemma TrimEmptyIffAllSpace(s: string)
    ensures Trim(s) == [] <==> AllSpace(s)
  {
    if AllSpace(s) {
      assert s + [] + [] == s;
      TrimOfPadded(s, [], []);
    }
  }

  /** `parts.join(sep)`. */
  function Join(parts: seq<string>, sep: string): (r: string)
    ensures |parts| == 1 ==> r == parts[0]
    ensures parts == [] ==> r == []
    ensures parts != [] ==> parts[0] <= r
  {
    if parts == [] then ""
    else if |parts| == 1 then parts[0]
    else parts[0] + sep + Join(parts[1..], sep)
  }

  /** Joining one more part adds the separator and that part at the end. */
  lemma {:induction false} JoinSnoc(parts: seq<string>, p: string, sep: string)
    requires parts != []
    ensures Join(parts + [p], sep) == Join(parts, sep) + sep + p
    decreases |parts|
  {
    if |parts| == 1 {
      assert parts + [p] == [parts[0], p];
      assert [parts[0], p][1..] == [p];
    } else {
      assert (parts + [p])[1..] == parts[1..] + [p];
      JoinSnoc(parts[1..], p, sep);
    }
  }

  function DigitChar(d: nat): (c: char)
    requires d < 10
    ensures '0' <= c <= '9' && c as int - '0' as int == d
  {
    ('0' as int + d) as char
  }

  /** The number a string of decimal digits denotes, read from the left. */
  function DecimalValue(s: string): int
  {
    if s == [] then 0 else DecimalValue(s[..|s| - 1]) * 10 + (s[|s| - 1] as int - '0' as int)
  }

  /**
   * The decimal rendering of `n`, as `String(n)` gives it: digits only, denoting
   * `n`, with no leading zero.
   */
  function NatToString(n: nat): (s: string)
    ensures |s| >= 1 && forall i :: 0 <= i < |s| ==> '0' <= s[i] <= '9'
    ensures DecimalValue(s) == n
    ensures n > 0 ==> s[0] != '0'
    ensures |s| > 1 ==> s[0] != '0'
  {
    if n < 10 then
      assert [DigitChar(n)][..0] == [];
      [DigitChar(n)]
    else
      var prefix := NatToString(n / 10);
      var s := prefix + [DigitChar(n % 10)];
      assert s[..|s| - 1] == prefix;
      s
  }

  /** Different numbers render differently, so an index is recovered from its rendering. */
  lemma {:induction false} NatToStringInjective(m: nat, n: nat)
    requires NatToString(m) == NatToString(n)
    ensures m == n
    decreases m
  {
    var a, b := NatToString(m), NatToString(n);
    if m >= 10 && n >= 10 {
      assert a[..|a| - 1] == NatToString(m / 10);
      assert b[..|b| - 1] == NatToString(n / 10);
      assert a[|a| - 1] == DigitChar(m % 10);
      assert b[|b| - 1] == DigitChar(n % 10);
      NatToStringInjective(m / 10, n / 10);
    } else if m < 10 && n < 10 {
      assert a[0] == DigitChar(m) && b[0] == DigitChar(n);
    }
  }

  /** A prefix stays a prefix behind a common opening. */
  lemma PrefixAfter(c: string, a: string, b: string)
    requires a <= b
    ensures c + a <= c + b
  {
    assert (c + b)[..|c + a|] == c + b[..|a|];
  }
}
